=== FILE: README.md ===
# network-engine synchronisation core in Dafny

A model of the synchronisation core of bacher/network-engine, an in-process
simulation of one authoritative game server and several clients. The model
covers four parts:

- **Server** (`src/engine/Server.ts`). The registry of connected players with
  sequential ids and palette colours. Each player has a jitter buffer of
  position updates that the tick loop consumes against a tick cursor. The
  initial buffer offset, resynchronisation, and the "skip-tick"
  interpolation drain a surplus the surplus history has shown for several
  ticks. The tick also broadcasts the game state, and `destroy` tears it
  down.
- **CyclicCounter** (`src/utils/CyclicCounter.ts`). The fixed-capacity
  circular history behind the surplus samples.
- **IntervalTimer** (`src/engine/timers.ts`). The drift-resisting scheduler
  that drives the server loop. Every target is measured from the fixed
  start time.
- **Client** (`src/engine/Client.ts`). Snapshot mirroring, the rendered
  state with the client's own player substituted, the circling step, and
  teardown. It includes the object sharing Client.ts relies on.

Modules:

- `Wrappers` has `Option`.
- `Types` has the messages, states and constants.
- `Lerp`, `NumberFormat`, `CyclicCounter`, `Timers`, `ServerPlayer` (one
  player's record and its per-message and per-tick steps), `Server`,
  `Client`.
- `Scenarios` holds end-to-end runs.

Everything is a pure function over immutable datatypes. Several things are
inputs rather than computed:

- the clock, the random spawn position and the circling position;
- the host's timeout and animation-frame handles;
- the time a message arrives.

Interpolation progress is an integer step count `k`; the floating
`interpolation` of Server.ts is `k / N`. `SKIP_TICK_INTERPOLATION_STEP = 1/N`
and `SKIP_TICK_PREPARATION_TICKS` are not defined in the repository's
`consts.ts`, so both are configuration parameters (`ServerPlayer.Config`).

A few facts about the code that shape the model:

- timers.ts:26-29 replaces only a negative delay, and replaces it with one
  whole interval; a delay of exactly 0 is kept.
- Client.ts:30-38 handles `INITIAL` without scheduling anything. A client
  sends a position only from `updatePlayerState` (Client.ts:85-90), and
  `destroy()` (Client.ts:93-98) cancels only the animation frame.
- Server.ts:216-234 leaves a player whose cursor fell behind with four or
  more buffered updates behind again on every later tick; see Findings.
- timers.ts:11-16 keeps no handle of the first callback, so `stop()` before
  the first tick does not prevent further callbacks; see Findings.

Server uses the timer and the tick pass **as written**: `Server.StartGameLoop`
starts the timer with `Timers.StartAsWritten`, and `Server.TickPlayer` steps
with `ServerPlayer.StepPlayerAsWritten`. The corrected definitions sit next to
them and are related to them by lemmas. The surplus history of each player
record is the one exception: it is built with the corrected
`CyclicCounter.New` (see Left out and Findings).

## Model

| member | source | states |
|---|---|---|
| CyclicCounter.New | src/utils/CyclicCounter.ts:1-3 | A counter of the capacity asked for, every slot 0, cursor on slot 0 (the corrected constructor the player records use). |
| CyclicCounter.NewAsWritten | src/utils/CyclicCounter.ts:1-3 | The class has no constructor: whatever capacity a caller passes, the counter has 100 zero slots and cursor 0. |
| CyclicCounter.NewAsWrittenIgnoresCapacity | src/utils/CyclicCounter.ts:2 | For every positive capacity other than 100, the class as written yields a different length, and the corrected constructor yields the requested one. |
| CyclicCounter.Increase | src/utils/CyclicCounter.ts:5-7 | Adds the value into the slot under the cursor only. The cursor, the capacity and every other slot are unchanged. |
| CyclicCounter.Next | src/utils/CyclicCounter.ts:9-15 | Moves the cursor one slot on, wrapping to 0 at the capacity, and writes the value there. Every other slot is unchanged. |
| CyclicCounter.NextZero | src/utils/CyclicCounter.ts:9 | `next()` with no argument writes 0 into the new slot and otherwise behaves as `next`. |
| CyclicCounter.NextAllWindow | src/utils/CyclicCounter.ts:9-15 | After any run of `next` calls, the cursor has moved by the run's length modulo the capacity. Each of the last `capacity` values sits in the slot it was written to, and unreached slots keep their old values. |
| CyclicCounter.FullRotation | src/utils/CyclicCounter.ts:9-15 | `capacity` consecutive `next` calls return the cursor to its start and leave exactly the written values, in rotation order. |
| CyclicCounter.CursorSlotAfter | src/utils/CyclicCounter.ts:9-15 | The slot under the cursor survives fewer than `capacity` further `next` calls and is overwritten by the `capacity`-th. |
| CyclicCounter.IncreaseSurvivesRotation | src/utils/CyclicCounter.ts:5-15 | An amount added by `increase` stays in its slot through fewer than `capacity` later `next` calls, and the `capacity`-th call replaces it with the value it writes. |
| Lerp.Lerp | src/utils/lerp.ts:1-3 | Mix 0 gives the first value and mix 1 the second. |
| Lerp.LerpBetween | src/utils/lerp.ts:1-3 | A mix in [0, 1] lands between the two values, whichever of them is larger. |
| Lerp.LerpPosition | src/utils/lerp.ts:10-19 | Blends both coordinates. Mix 0 gives the first position and mix 1 the second. |
| NumberFormat.NatToString | src/engine/Server.ts:65 | `${n}` of a non-negative integer: a non-empty string of decimal digits ending in the digit `n % 10`, at least two digits from 10 on. |
| NumberFormat.NatToStringInjective | src/engine/Server.ts:64-65 | Two different counter values never render to the same text. |
| NumberFormat.PlayerIdOf | src/engine/Server.ts:65 | A player id is "id:" followed by the decimal counter. |
| NumberFormat.PlayerIdOfInjective | src/engine/Server.ts:64-65 | Different counter values give different player ids. |
| Timers.New | src/engine/timers.ts:1-9 | A new timer has completed no tick, has no start time and no recorded handle, and nothing is scheduled or due. |
| Timers.StartAsWritten | src/engine/timers.ts:11-16 | `start()` schedules the first callback with the host but leaves the recorded handle as it was. |
| Timers.Start | src/engine/timers.ts:11-16 | The corrected `start()`: it schedules the first callback and records its handle. |
| Timers.Fire | src/engine/timers.ts:12-15 | The host runs a scheduled callback, which leaves the queue. Nothing else changes: the tick count, start time, recorded handle and due time stay as they were. |
| Timers.Begin | src/engine/timers.ts:12-13 | The first callback fixes the start time to `now` and changes no other field. |
| Timers.Delay | src/engine/timers.ts:22-29 | The delay is the distance to target `start + (tickId+1)·interval` when that is not negative, and one whole interval otherwise. With a non-negative interval the next callback is never scheduled before its target. |
| Timers.Tick | src/engine/timers.ts:18-34 | After the callback that ran at `now`, the tick count goes up by exactly one. The next callback is scheduled with its handle recorded, due at `now + Delay`: never before `now`, and never before the target of the new tick count (with a non-negative interval). The start time is unchanged. |
| Timers.Stop | src/engine/timers.ts:36-41 | Cancels the recorded callback, if any, and forgets its handle. Without a recorded handle nothing is cancelled. |
| Timers.StopIdempotent | src/engine/timers.ts:36-41 | A second `stop()` changes nothing. |
| Timers.StopCancelsEverything | src/engine/timers.ts:36-41 | When every scheduled callback is the recorded one, `stop()` leaves none. |
| Timers.TrackedPreserved | src/engine/timers.ts:11-41 | With the corrected start, starting an idle timer, running callbacks, ticking and stopping all keep every scheduled callback recorded. |
| Timers.SingleCallbackPreserved | src/engine/timers.ts:11-41 | With `start()` as written, the timer still never has more than one callback scheduled, and a recorded handle is always that callback's. |
| Timers.StopBeforeFirstTickAsWritten | src/engine/timers.ts:11-41 | As written, `stop()` right after `start()` cancels nothing: the first callback stays scheduled. |
| Timers.StopBeforeFirstTick | src/engine/timers.ts:11-41 | With the corrected start, `stop()` right after `start()` cancels the first callback. |
| Timers.RunCounts | src/engine/timers.ts:18-20 | Any run of ticks raises the tick count by exactly the run's length. |
| Timers.RunNoDrift | src/engine/timers.ts:18-33 | No drift: after any non-empty run of `n` ticks, however late the callbacks ran, the callback last scheduled is due no earlier than `start + n·interval`, and the next tick schedules its successor no earlier than `start + (n+1)·interval`. |
| Timers.RunOnTime | src/engine/timers.ts:18-33 | The exact due time after any non-empty run of `n` ticks. If the last tick ran no later than `start + n·interval`, the callback it scheduled is due exactly then. If it ran later, that callback is due one whole interval after the tick ran. |
| ServerPlayer.NewRecord | src/engine/Server.ts:76-88 | A new record: empty buffer, no cursor, progress 0, a spread window of 30 zeros with total 0, and a history of the configured capacity (the corrected counter; see Left out). |
| ServerPlayer.SumUpdate | src/engine/Server.ts:131-133 | Replacing one window slot changes the window's sum by the new value minus the old one, so the running total stays the sum. |
| ServerPlayer.OnPlayerMessage | src/engine/Server.ts:111-165 | The payload is appended to the buffer, and the first update anchors the cursor at tickId + 4. Only a truthy previous arrival time updates the spread window, its running total and the wrapping window index. |
| ServerPlayer.RecordSurplus | src/engine/Server.ts:207-209 | Each tick on an anchored player records the surplus (updates beyond the head, one fewer while interpolating) in the history and changes nothing else. |
| ServerPlayer.Resync | src/engine/Server.ts:217-222 | A cursor that fell behind jumps to the tick plus the part of the 4-tick offset that the buffer does not cover. |
| ServerPlayer.Debit | src/engine/Server.ts:260-266 | Starting an interpolation takes one from every history slot. |
| ServerPlayer.Dequeue | src/engine/Server.ts:236 | The head of the buffer is removed, and it is the update the tick applies. |
| ServerPlayer.AbortIfDrained | src/engine/Server.ts:239-244 | A running interpolation resets to 0 exactly when nothing is left to blend towards. |
| ServerPlayer.MaybeStart | src/engine/Server.ts:247-268 | An idle player starts interpolating exactly when every history sample is at least 1, and the start debits the history. |
| ServerPlayer.FinishesAtOne | src/engine/Server.ts:283-285 | For at most 1000 steps, passing the 0.999 threshold is the same as reaching step `N`. |
| ServerPlayer.Blend | src/engine/Server.ts:270-290 | Idle: the dequeued update is applied. Interpolating: the blend towards the next update at the current progress is applied, then the progress advances one step. Past the threshold it resets and the next update is dropped. |
| ServerPlayer.BlendReadsNonEmptyBuffer | src/engine/Server.ts:246-273 | The update read for blending always exists: the drained-buffer reset and the history sample taken this tick guarantee it. |
| ServerPlayer.Consume | src/engine/Server.ts:236-303 | The cursor's tick consumes one update, or two when an interpolation finishes. It covers the outcome of the drained, running, starting and idle cases and the history debit, and it keeps the record valid. |
| ServerPlayer.StepPlayerAsWritten | src/engine/Server.ts:203-304 | One tick as written. An empty buffer or a cursor ahead only records a sample. A cursor behind resynchronises and ends the tick without consuming anything. A cursor on the tick consumes, and the buffer only ever loses a prefix. |
| ServerPlayer.ConsumeTickAsWritten | src/engine/Server.ts:236-290 | The cursor's tick as written, case by case. A drained interpolation resets and applies the last update. A running one blends, then advances or finishes and drops one extra update. An idle player starts when every sample (this tick's included) shows a spare update, at progress 2 or finished; otherwise it applies the head. |
| ServerPlayer.StepPlayer | src/engine/Server.ts:216-234 | The corrected tick: a non-empty player is never left behind the tick, and a stalled player consumes an update on this very tick. |
| ServerPlayer.StepPlayerOnlyFixesResync | src/engine/Server.ts:216-234 | The correction differs from the code as written only on the resynchronising tick. There it acts as the as-written tick on a cursor moved to the tick; everywhere else the two steps are equal. |
| ServerPlayer.ResyncStallsAsWritten | src/engine/Server.ts:216-234 | As written, a player behind with at least 4 buffered updates is behind again at the next tick, with the same buffer, position and progress: it never recovers. |
| ServerPlayer.ResyncRecovers | src/engine/Server.ts:216-234 | With the correction, the same player applies an update at once, has a shorter buffer and is no longer behind. |
| Server.Empty | src/engine/Server.ts:55-61 | A new server has no players, id counter 0 and no loop. |
| Server.GameStateOf | src/engine/Server.ts:90-92 | The game state lists exactly the players' states, in connection order. |
| Server.EmptyValid | src/engine/Server.ts:55-61 | A new server satisfies the registry invariant. |
| Server.IdsDistinct | src/engine/Server.ts:63-65 | No two connections share an id. |
| Server.OnlyFirstIsProcessed | src/engine/Server.ts:198-201 | Only the first connection carries "id:1", the one id the tick pass processes. |
| Server.AttachPlayerLink | src/engine/Server.ts:63-105 | Sequential id "id:<n>" and palette colour `COLORS[len % 4]`. One record is appended after the existing ones, which are unchanged. `INITIAL` carries a snapshot that already includes the new player. |
| Server.OnPlayerMessage | src/engine/Server.ts:107-119 | Only the sender's record changes. Its first update anchors the cursor at the loop timer's completed tick count + 4, which needs the loop to be running. |
| Server.TickPlayer | src/engine/Server.ts:197-205 | Only "id:1" with an anchored cursor is stepped, with the tick as written. Every other record is unchanged. |
| Server.ApplyTickChanges | src/engine/Server.ts:194-305 | The tick pass steps every record in order and keeps all but the first unchanged. |
| Server.BroadcastState | src/engine/Server.ts:307-318 | Every connection receives exactly one `GAME_STATE_UPDATE`, which carries the current game state. |
| Server.Tick | src/engine/Server.ts:182-192 | No connections: nothing changes. Otherwise every record is the tick pass's result for it (buffer, cursor, progress, history, state and spread), and every connection is also sent the post-tick game state. |
| Server.TickStallsAsWritten | src/engine/Server.ts:194-234 | As written, a stalled first player keeps its buffer and its shown position through the whole server tick, and is stalled again at the next one. |
| Server.StartGameLoop | src/engine/Server.ts:170-179 | A fresh timer at the server interval, started as written: one callback is scheduled, its handle is not recorded, and no tick has completed. |
| Server.TimerCallback | src/engine/timers.ts:11-34 | The loop's callback runs the server tick at the timer's completed-tick count, raises that count by one, fixes the start time on the first call, and leaves exactly one callback scheduled, recorded. |
| Server.CallbackStallsAsWritten | src/engine/Server.ts:194-234 | As written, a stalled first player stays stalled from one loop callback to the next, with buffer and shown position unchanged. |
| Server.Destroy | src/engine/Server.ts:320-325 | Drops the timer and stops it. The recorded callback is cancelled; an unrecorded first callback stays scheduled. |
| Server.DestroyIdempotent | src/engine/Server.ts:320-325 | A second `destroy` changes nothing and stops no timer. |
| Server.DestroyBeforeFirstTickAsWritten | src/engine/Server.ts:320-325 | As written, destroying the server right after `startGameLoop` leaves the first loop callback scheduled. |
| Client.New | src/engine/Client.ts:14-26 | A new client has no id, no snapshots, no local state, no frame handle and nothing sent. |
| Client.FindIndex | src/engine/Client.ts:34-36 | `find` by id: the first entry carrying the id, or none when no entry does. |
| Client.FindOwn | src/engine/Client.ts:81-83 | `find` on the rendered list: the first entry carrying the own id, or none when no entry does. |
| Client.OnInitial | src/engine/Client.ts:30-37 | Takes the id. The mirrored and rendered states become one shared list equal to the snapshot, and the local state is the first entry carrying the id, shared with that list. |
| Client.OnGameStateUpdate | src/engine/Client.ts:40-53 | Mirrors the snapshot. The rendered list has its length, with every own-id entry replaced by the local state (undefined when there is none) and every other entry as received. |
| Client.FindOwnIgnoresPosition | src/engine/Client.ts:79-83 | Moving the local state does not change which rendered entry `find` returns. |
| Client.UpdatePlayerState | src/engine/Client.ts:79-91 | Moves the local state and every entry sharing it, writes the same position into the first own entry, leaves the others unchanged, and sends exactly one `PLAYER_POSITION_UPDATE`. The mirror is never replaced: a received mirror still shows the same list, and a mirror that is the rendered list shows the moved state too. |
| Client.CirclingLogic | src/engine/Client.ts:64-77 | Without a local state nothing changes; otherwise exactly one position update is performed. |
| Client.UpdateKeepsCanUpdate | src/engine/Client.ts:64-91 | An update, and so a circling step, leaves an own entry for the next frame's `find(...)!`: once updatable, the client stays updatable. |
| Client.CirclingFrames | src/engine/Client.ts:57-91 | Any run of animation frames. No frame hits the `find(...)!` type error. A client with a local state sends exactly one `PLAYER_POSITION_UPDATE` per frame, in frame order, and its local state ends at the last position. A client without one sends nothing and changes nothing but the handle. After each frame the recorded handle is the one just requested, so `destroy` cancels the live frame. |
| Client.StartCircling | src/engine/Client.ts:57-62 | Records the handle of the requested animation frame. |
| Client.Destroy | src/engine/Client.ts:93-98 | Returns the recorded frame handle for cancelling and forgets it. |
| Client.DestroyIdempotent | src/engine/Client.ts:93-98 | A second `destroy` cancels nothing. |
| Client.InitialEnablesUpdate | src/engine/Client.ts:30-83 | After an `INITIAL` listing the client's id, the circling step can run without a type error. |
| Client.UpdateKeepsUpdatable | src/engine/Client.ts:40-83 | After a `GAME_STATE_UPDATE` listing the client's id, the circling step can still run, provided the local state carries that id (as the one taken from `INITIAL` does). |
| Scenarios.TwoPlayersAttach | src/engine/Server.ts:63-100 | Two connections get "id:1" and "id:2", in order, with "red" and "blue". |
| Scenarios.TickBeforeCursor | src/engine/Server.ts:216-233 | A tick before the cursor's tick leaves a waiting update and the shown position alone. |
| Scenarios.TickAtCursor | src/engine/Server.ts:236-303 | The tick the cursor points at applies the waiting update. |
| Scenarios.CallbackBeforeCursor | src/engine/Server.ts:194-234 | A loop callback before the cursor's tick waits, and schedules its successor. |
| Scenarios.CallbackAtCursor | src/engine/Server.ts:182-319 | The loop callback for the cursor's tick applies the waiting update, and the broadcast it sends last carries the new position. |
| Scenarios.UpdateAppliedAfterOffset | src/engine/Server.ts:113-119 | A first update received before the loop's first tick is shown after exactly 4 waiting callbacks, on the fifth, and that callback's broadcast carries it. |

## Left out

- `src/engine/network.ts` (the simulated link) is not part of this model. It delays every message by its own random amount (network.ts:28-39), so a later message can overtake an earlier one. The model takes messages in the order its functions are called, which can be any delivery order.
- Floating point: positions, times, the arrival-spread window and its running sum, and the interpolation mix are exact reals, so rounding in `lerp`, in the spread total and in `k / N` is not modelled. The `> 0.999` threshold is modelled exactly (`1000·k > 999·N`).
- `Math.random()` spawn positions, `performance.now()`, and the `sin`/`cos` circling position are inputs.
- Diagnostics: the module-level `CyclicCounter`s `incomingUpdatesCounter` and `bufferSizeCounter`, the throttled `report` of spread statistics (Server.ts:135-156, 328-354), and every `console` message are left out. None of them feeds back into the state.
- `setTimeout`, `clearTimeout` and `requestAnimationFrame` are the host's. The model keeps the set of pending timeout handles and takes new handles as inputs. It records when a callback scheduled by `tick()` is due, but not when the host actually runs it. The zero-delay first callback of `start()` has no due time, because `start()` is given no clock reading.
- A second `startGameLoop` on a running server replaces the timer without stopping the old one; the old timer's callbacks would go on ticking the same server. The model drops the old timer.
- Server.TimerCallback: the start time is fixed by the first callback that finds none. Server.ts starts its timer once, so this matches `start()`'s own callback; a repeated `start()`, which would reset the start time, is not modelled.
- The orphaned first callback after `destroy` calls `tick()` on a server without a timer, where `getTickId()` would throw once a player is connected. The model stops at the finding that the callback stays scheduled.
- Type errors of the `!` assertions are preconditions, not modelled error paths. These are `getTickId()` with no loop (Server.OnPlayerMessage, when a first update arrives before `startGameLoop` or after `destroy`) and `find(...)!` without an own entry (Client.UpdatePlayerState, Client.CirclingLogic).
- The `else` branch at Server.ts:298-301 is unreachable: `shift()` on a non-empty buffer returns an update object, which is truthy. The model has no such branch.
- ServerPlayer.OnPlayerMessage: the `if (playerId === 'id:1')` diagnostics inside it are left out, as above.
- ServerPlayer.NewRecord: the surplus history is built with the corrected `CyclicCounter.New(preparationTicks)`, not with the 100-slot counter Server.ts:87 actually gets from CyclicCounter.ts:1-3. The server model is therefore the program as written only when `preparationTicks` is 100; for any other value it is the program with the capacity finding corrected.
- NumberFormat.NatToStringInjective: counter values are unbounded `nat`, but `lastPlayerId` and the tick counts are JavaScript numbers. From 10^21 on, `${n}` prints exponent notation, so the lemma holds for the source only below that bound, which no counter reaches in practice.
- NumberFormat.PlayerIdOfInjective: holds for the source only below 2^53. Past that, `this.lastPlayerId += 1` (Server.ts:64) can leave the number unchanged, so two players can get the same id. The bound of NatToStringInjective applies too.
- Timers.GetTickId and Client.OnMessage carry no contract of their own. They return a field or dispatch to OnInitial / OnGameStateUpdate, which carry the contracts.
- UI components (`App.tsx`, `StateVisualizer`, `ReportBlock`, `render.ts`) and `bootstrap.ts` are outside the core.
- The stall and recovery properties are stated for one tick, as an invariant that the next tick meets again. Longer multi-tick runs of the consuming step are not stated as lemmas.

## Findings

| source | as written | input that shows it | evidently intended | confidence | as-written member | corrected member |
|---|---|---|---|---|---|---|
| src/engine/Server.ts:216-234 | A cursor behind the tick is set to `tickId + max(0, 4 - len)`, and the tick then always `continue`s. With 4 or more buffered updates the cursor lands on this very tick, and the next tick finds it behind again. | The first player has cursor 5 at tick 10 with 4 buffered updates. Every later tick resets the cursor to that tick and applies nothing, so the buffer is never consumed. | A resync onto the current tick consumes that tick's update as a cursor on the current tick does on every other tick (Server.ts:236-303). | high, not executed | ServerPlayer.StepPlayerAsWritten, ServerPlayer.ResyncStallsAsWritten, Server.TickStallsAsWritten | ServerPlayer.StepPlayer, ServerPlayer.ResyncRecovers, ServerPlayer.StepPlayerOnlyFixesResync |
| src/engine/timers.ts:11-16 | `start()` schedules the first callback without storing its handle, so `stop()` (timers.ts:36-41) finds none. | `start()`, then `stop()` before the first tick: the first callback still runs and starts the tick chain of a stopped timer. The same holds for `Server.destroy()` right after `startGameLoop()`. | `start()` stores the handle, so `stop()` cancels it. | high, not executed | Timers.StartAsWritten, Timers.StopBeforeFirstTickAsWritten, Server.DestroyBeforeFirstTickAsWritten | Timers.Start, Timers.StopBeforeFirstTick |
| src/utils/CyclicCounter.ts:1-3 | The class has no constructor and always allocates 100 slots, while Server.ts:87 passes `SKIP_TICK_PREPARATION_TICKS` as a capacity. | Any capacity other than 100. The surplus history then has 100 slots, so a start needs 100 consecutive samples with a spare update instead of the configured number. | The history holds `SKIP_TICK_PREPARATION_TICKS` samples. | low (the constant's value is not in the repository), not executed | CyclicCounter.NewAsWritten, CyclicCounter.NewAsWrittenIgnoresCapacity | CyclicCounter.New |

=== FILE: Client.dfy ===
/**
 A client (src/engine/Client.ts): it mirrors the server's snapshots and
 renders them with its own player replaced by its locally predicted state.

 Client.ts shares objects by reference, and that sharing decides what a
 later write changes. The model makes it explicit: a rendered entry is
 either `Own` — the very object `playerState` refers to — or a `Copied`
 entry of its own; and right after `INITIAL` the mirrored server snapshot
 is the same list as the rendered one (`SameAsRendered`).
 */
module Client {
  import opened Wrappers
  import opened Types

  /** Animation frame handles are positive integers, so a recorded handle is always truthy. */
  type FrameId = n: nat | n > 0 witness 1

  datatype Slot = Own | Copied(state: PlayerState)

  datatype Mirror = NoSnapshot | SameAsRendered | Received(gameState: GameState)

  datatype ClientState = ClientState(
    playerId: Option<string>,
    serverGameState: Mirror,
    gameState: Option<seq<Slot>>,
    playerState: Option<PlayerState>,
    animationFrameId: Option<FrameId>,
    sent: seq<ClientMessage>)

  /** A client that has received nothing yet. */
  function New(): (c: ClientState)
    ensures c.playerId == None && c.gameState == None && c.playerState == None
    ensures c.serverGameState == NoSnapshot && c.animationFrameId == None && c.sent == []
  {
    ClientState(None, NoSnapshot, None, None, None, [])
  }

  /** What a rendered entry shows; an `Own` entry without a local state is `undefined`. */
  function Resolve(slot: Slot, local: Option<PlayerState>): Option<PlayerState> {
    match slot
    case Own => local
    case Copied(state) => Some(state)
  }

  function ResolveAll(slots: seq<Slot>, local: Option<PlayerState>): (v: seq<Option<PlayerState>>)
    ensures |v| == |slots|
    ensures forall i :: 0 <= i < |slots| ==> v[i] == Resolve(slots[i], local)
  {
    seq(|slots|, i requires 0 <= i < |slots| => Resolve(slots[i], local))
  }

  function AsEntries(g: GameState): (v: seq<Option<PlayerState>>)
    ensures |v| == |g.players|
    ensures forall i :: 0 <= i < |g.players| ==> v[i] == Some(g.players[i])
  {
    seq(|g.players|, i requires 0 <= i < |g.players| => Some(g.players[i]))
  }

  /** The players list a renderer reads from `gameState`, if any. */
  function Rendered(c: ClientState): Option<seq<Option<PlayerState>>> {
    match c.gameState
    case Some(slots) => Some(ResolveAll(slots, c.playerState))
    case None => None
  }

  /** The players list of the mirrored server snapshot, if any. */
  function ServerView(c: ClientState): Option<seq<Option<PlayerState>>> {
    match c.serverGameState
    case NoSnapshot => None
    case SameAsRendered => Rendered(c)
    case Received(g) => Some(AsEntries(g))
  }

  /** Whether `entry` is a player whose id is the client's own. */
  predicate IsOwn(entry: Option<PlayerState>, playerId: Option<string>) {
    entry.Some? && playerId == Some(entry.value.playerId)
  }

  /** `players.find(p => p.playerId === id)`, as an index. */
  function FindIndex(players: seq<PlayerState>, id: string): (r: Option<nat>)
    ensures r.Some? ==> r.value < |players| && players[r.value].playerId == id
    ensures r.Some? ==> forall j :: 0 <= j < r.value ==> players[j].playerId != id
    ensures r.None? ==> forall j :: 0 <= j < |players| ==> players[j].playerId != id
  {
    if |players| == 0 then None
    else if players[0].playerId == id then Some(0)
    else match FindIndex(players[1..], id)
      case Some(k) => Some(k + 1)
      case None => None
  }

  /** The first own entry of a rendered list, as `find` on the rendered players returns it. */
  function FindOwn(entries: seq<Option<PlayerState>>, playerId: Option<string>): (r: Option<nat>)
    ensures r.Some? ==> r.value < |entries| && IsOwn(entries[r.value], playerId)
    ensures r.Some? ==> forall j :: 0 <= j < r.value ==> !IsOwn(entries[j], playerId)
    ensures r.None? ==> forall j :: 0 <= j < |entries| ==> !IsOwn(entries[j], playerId)
  {
    if |entries| == 0 then None
    else if IsOwn(entries[0], playerId) then Some(0)
    else match FindOwn(entries[1..], playerId)
      case Some(k) => Some(k + 1)
      case None => None
  }

  /**
   `INITIAL`: take the id; the received snapshot becomes both the mirrored
   and the rendered state (one shared list); the local state is the first
   entry carrying the id, or undefined.
   */
  function OnInitial(c: ClientState, playerId: string, g: GameState): (r: ClientState)
    ensures r.playerId == Some(playerId)
    ensures r.serverGameState == SameAsRendered
    ensures Rendered(r) == Some(AsEntries(g)) && ServerView(r) == Some(AsEntries(g))
    ensures FindIndex(g.players, playerId).Some? ==>
              r.playerState == Some(g.players[FindIndex(g.players, playerId).value])
    ensures FindIndex(g.players, playerId).None? ==> r.playerState == None
    ensures FindIndex(g.players, playerId).Some? ==>
              r.gameState.value[FindIndex(g.players, playerId).value] == Own
    ensures r.animationFrameId == c.animationFrameId && r.sent == c.sent
  {
    var found := FindIndex(g.players, playerId);
    var slots := seq(|g.players|, i requires 0 <= i < |g.players| =>
                       if found == Some(i) then Own else Copied(g.players[i]));
    var local := if found.Some? then Some(g.players[found.value]) else None;
    var r := c.(playerId := Some(playerId), serverGameState := SameAsRendered,
                gameState := Some(slots), playerState := local);
    assert ResolveAll(slots, local) == AsEntries(g);
    r
  }

  /**
   `GAME_STATE_UPDATE`: mirror the received snapshot, and render it with
   every entry carrying the own id replaced by the local state.
   */
  function OnGameStateUpdate(c: ClientState, g: GameState): (r: ClientState)
    ensures r.serverGameState == Received(g) && ServerView(r) == Some(AsEntries(g))
    ensures Rendered(r).Some? && |Rendered(r).value| == |g.players|
    ensures forall i :: 0 <= i < |g.players| && c.playerId == Some(g.players[i].playerId) ==>
              Rendered(r).value[i] == c.playerState
    ensures forall i :: 0 <= i < |g.players| && c.playerId != Some(g.players[i].playerId) ==>
              Rendered(r).value[i] == Some(g.players[i])
    ensures r.playerId == c.playerId && r.playerState == c.playerState
    ensures r.animationFrameId == c.animationFrameId && r.sent == c.sent
  {
    c.(serverGameState := Received(g),
       gameState := Some(seq(|g.players|, i requires 0 <= i < |g.players| =>
                               if c.playerId == Some(g.players[i].playerId) then Own else Copied(g.players[i]))))
  }

  /** `onMessage`: dispatch on the message kind. */
  function OnMessage(c: ClientState, msg: ServerMessage): ClientState {
    match msg
    case Initial(playerId, g) => OnInitial(c, playerId, g)
    case GameStateUpdate(g) => OnGameStateUpdate(c, g)
  }

  /**
   What `updatePlayerState` needs to run without a type error: a local
   state, a rendered list, and an own entry in that list once the local
   state is moved.
   */
  predicate CanUpdate(c: ClientState) {
    && c.playerState.Some?
    && c.gameState.Some?
    && FindOwn(ResolveAll(c.gameState.value, c.playerState), c.playerId).Some?
  }

  /** Moving the local state does not change its id, so it does not change which entry is found. */
  lemma FindOwnIgnoresPosition(slots: seq<Slot>, local: PlayerState, playerId: Option<string>, p: Position)
    ensures FindOwn(ResolveAll(slots, Some(local)), playerId)
            == FindOwn(ResolveAll(slots, Some(local.(position := p))), playerId)
  {
    var a, b := ResolveAll(slots, Some(local)), ResolveAll(slots, Some(local.(position := p)));
    forall i | 0 <= i < |slots|
      ensures IsOwn(a[i], playerId) <==> IsOwn(b[i], playerId)
    {
    }
    FindOwnSameOwnership(a, b, playerId);
  }

  lemma {:induction false} FindOwnSameOwnership(a: seq<Option<PlayerState>>, b: seq<Option<PlayerState>>, playerId: Option<string>)
    requires |a| == |b|
    requires forall i :: 0 <= i < |a| ==> (IsOwn(a[i], playerId) <==> IsOwn(b[i], playerId))
    ensures FindOwn(a, playerId) == FindOwn(b, playerId)
  {
    if |a| > 0 {
      FindOwnSameOwnership(a[1..], b[1..], playerId);
    }
  }

  /**
   `updatePlayerState(position)`: move the local state (and with it every
   `Own` entry), write the same position into the first own entry of the
   rendered list, and send exactly one `PLAYER_POSITION_UPDATE` with it.
   */
  function UpdatePlayerState(c: ClientState, position: Position): (r: ClientState)
    requires CanUpdate(c)
    ensures r.playerState == Some(c.playerState.value.(position := position))
    ensures r.gameState.Some? && |r.gameState.value| == |c.gameState.value|
    ensures var k := FindOwn(Rendered(c).value, c.playerId).value;
            && Rendered(r).value[k].Some?
            && Rendered(r).value[k] == Some(Rendered(c).value[k].value.(position := position))
    ensures forall i :: 0 <= i < |c.gameState.value| && c.gameState.value[i] == Own ==>
              Rendered(r).value[i] == r.playerState
    ensures forall i :: (0 <= i < |c.gameState.value| && c.gameState.value[i].Copied?
                         && i != FindOwn(Rendered(c).value, c.playerId).value) ==>
              Rendered(r).value[i] == Rendered(c).value[i]
    ensures r.serverGameState == c.serverGameState
    ensures c.serverGameState.Received? ==> ServerView(r) == ServerView(c)
    ensures c.serverGameState == SameAsRendered ==> ServerView(r) == Rendered(r)
    ensures r.sent == c.sent + [PlayerPositionUpdate(position)]
    ensures r.playerId == c.playerId && r.animationFrameId == c.animationFrameId
  {
    var local := c.playerState.value.(position := position);
    var slots := c.gameState.value;
    FindOwnIgnoresPosition(slots, c.playerState.value, c.playerId, position);
    var k := FindOwn(ResolveAll(slots, Some(local)), c.playerId).value;
    var slots' := match slots[k]
                  case Own => slots
                  case Copied(state) => slots[k := Copied(state.(position := position))];
    c.(playerState := Some(local), gameState := Some(slots'),
       sent := c.sent + [PlayerPositionUpdate(position)])
  }

  /** One step of the circling simulation with the position the clock gives (an input here). */
  function CirclingLogic(c: ClientState, position: Position): (r: ClientState)
    requires c.playerState.Some? ==> CanUpdate(c)
    ensures c.playerState.None? ==> r == c
    ensures c.playerState.Some? ==> r == UpdatePlayerState(c, position)
  {
    if c.playerState.None? then c else UpdatePlayerState(c, position)
  }

  /**
   An update leaves the client able to update again: the entry it moved is
   still the client's own, so the next frame's `find(...)!` succeeds.
   */
  lemma UpdateKeepsCanUpdate(c: ClientState, position: Position)
    requires CanUpdate(c)
    ensures CanUpdate(UpdatePlayerState(c, position))
    ensures CanUpdate(CirclingLogic(c, position))
  {
  }

  lemma AppendAssoc<T>(a: seq<T>, b: seq<T>, c: seq<T>)
    ensures (a + b) + c == a + (b + c)
  {
  }

  /** The position messages a run of circling steps sends, one per frame. */
  function Updates(positions: seq<Position>): (m: seq<ClientMessage>)
    ensures |m| == |positions|
    ensures forall i :: 0 <= i < |positions| ==> m[i] == PlayerPositionUpdate(positions[i])
    decreases |positions|
  {
    if |positions| == 0 then [] else [PlayerPositionUpdate(positions[0])] + Updates(positions[1..])
  }

  /**
   The animation-frame chain `startCircling` sets up: frame `i` runs one
   circling step at the position the clock gives, `positions[i]`, and then
   requests the next frame, whose handle `frames[i]` replaces the recorded
   one. No frame fails; each frame of a client with a local state sends
   exactly its one position, in order; and the recorded handle is always the
   live one, the handle `destroy` then cancels.
   */
  function CirclingFrames(c: ClientState, positions: seq<Position>, frames: seq<FrameId>): (r: ClientState)
    requires c.playerState.Some? ==> CanUpdate(c)
    requires |frames| == |positions|
    ensures r.playerState.Some? ==> CanUpdate(r)
    ensures |positions| == 0 ==> r == c
    ensures |positions| > 0 ==> r.animationFrameId == Some(frames[|frames| - 1])
    ensures c.playerState.None? ==> r == c.(animationFrameId := r.animationFrameId)
    ensures c.playerState.Some? ==> r.sent == c.sent + Updates(positions)
    ensures c.playerState.Some? && |positions| > 0 ==>
              r.playerState == Some(c.playerState.value.(position := positions[|positions| - 1]))
    ensures r.playerId == c.playerId
    decreases |positions|
  {
    if |positions| == 0 then c
    else
      var next := StartCircling(CirclingLogic(c, positions[0]), frames[0]);
      assert next.playerState.Some? ==> CanUpdate(next) by {
        if c.playerState.Some? {
          UpdateKeepsCanUpdate(c, positions[0]);
        }
      }
      var r := CirclingFrames(next, positions[1..], frames[1..]);
      assert c.playerState.Some? ==> r.sent == c.sent + Updates(positions) by {
        if c.playerState.Some? {
          AppendAssoc(c.sent, [PlayerPositionUpdate(positions[0])], Updates(positions[1..]));
        }
      }
      r
  }

  /** `startCircling`: remember the handle of the requested animation frame. */
  function StartCircling(c: ClientState, frame: FrameId): (r: ClientState)
    ensures r == c.(animationFrameId := Some(frame))
  {
    c.(animationFrameId := Some(frame))
  }

  /** `destroy`: cancel the recorded animation frame, if any, and forget it. */
  function Destroy(c: ClientState): (r: (ClientState, Option<FrameId>))
    ensures r.0.animationFrameId == None
    ensures r.1 == c.animationFrameId
    ensures r.0 == c.(animationFrameId := None)
  {
    (c.(animationFrameId := None), c.animationFrameId)
  }

  lemma DestroyIdempotent(c: ClientState)
    ensures Destroy(Destroy(c).0).0 == Destroy(c).0
    ensures Destroy(Destroy(c).0).1 == None
  {
  }

  /** After an `INITIAL` that lists the client's id, the circling step can run. */
  lemma InitialEnablesUpdate(c: ClientState, playerId: string, g: GameState)
    requires FindIndex(g.players, playerId).Some?
    ensures CanUpdate(OnInitial(c, playerId, g))
  {
    var r := OnInitial(c, playerId, g);
    var k := FindIndex(g.players, playerId).value;
    assert IsOwn(ResolveAll(r.gameState.value, r.playerState)[k], r.playerId);
  }

  /**
   After a `GAME_STATE_UPDATE` that lists the client's id, the circling step
   can run, provided the local state carries that id.
   */
  lemma UpdateKeepsUpdatable(c: ClientState, g: GameState, i: nat)
    requires c.playerState.Some? && c.playerId == Some(c.playerState.value.playerId)
    requires i < |g.players| && c.playerId == Some(g.players[i].playerId)
    ensures CanUpdate(OnGameStateUpdate(c, g))
  {
    var r := OnGameStateUpdate(c, g);
    assert IsOwn(ResolveAll(r.gameState.value, r.playerState)[i], r.playerId);
  }
}

=== FILE: CyclicCounter.dfy ===
/**
 Fixed-capacity circular history of integer samples (src/utils/CyclicCounter.ts).
 `next` advances a wrapping cursor and overwrites the slot it lands on;
 `increase` adds into the slot under the cursor.
 */
module CyclicCounter {

  /** The capacity of a counter built without an argument. */
  const DEFAULT_CAPACITY: nat := 100

  datatype Counter = Counter(buffer: seq<int>, index: nat)

  /** The capacity is the buffer length, and the cursor always points into the buffer. */
  predicate Valid(c: Counter) {
    0 < |c.buffer| && c.index < |c.buffer|
  }

  /** A counter of `capacity` zero slots with its cursor on slot 0. */
  function New(capacity: nat): (c: Counter)
    requires capacity > 0
    ensures Valid(c) && |c.buffer| == capacity && c.index == 0
    ensures forall i :: 0 <= i < capacity ==> c.buffer[i] == 0
  {
    Counter(seq(capacity, _ => 0), 0)
  }

  /**
   The constructor as the class is written: it takes no argument, so the
   capacity a caller passes is dropped and every counter holds 100 slots.
   */
  function NewAsWritten(capacity: nat): (c: Counter)
    ensures Valid(c) && |c.buffer| == DEFAULT_CAPACITY && c.index == 0
    ensures forall i :: 0 <= i < |c.buffer| ==> c.buffer[i] == 0
  {
    New(DEFAULT_CAPACITY)
  }

  /** Whatever capacity other than 100 a caller asks for, the class as written does not provide it. */
  lemma NewAsWrittenIgnoresCapacity(capacity: nat)
    requires capacity > 0 && capacity != DEFAULT_CAPACITY
    ensures |NewAsWritten(capacity).buffer| != capacity
    ensures |New(capacity).buffer| == capacity
  {
  }

  /** `increase(value)`: add into the current slot only. */
  function Increase(c: Counter, value: int): (r: Counter)
    requires Valid(c)
    ensures Valid(r) && |r.buffer| == |c.buffer| && r.index == c.index
    ensures r.buffer[c.index] == c.buffer[c.index] + value
    ensures forall i :: 0 <= i < |c.buffer| && i != c.index ==> r.buffer[i] == c.buffer[i]
  {
    c.(buffer := c.buffer[c.index := c.buffer[c.index] + value])
  }

  /** `next(value)`: advance the cursor, wrapping at the capacity, and overwrite the new slot. */
  function Next(c: Counter, value: int): (r: Counter)
    requires Valid(c)
    ensures Valid(r) && |r.buffer| == |c.buffer|
    ensures r.index == (c.index + 1) % |c.buffer|
    ensures r.buffer[r.index] == value
    ensures forall i :: 0 <= i < |c.buffer| && i != r.index ==> r.buffer[i] == c.buffer[i]
  {
    var i := if c.index + 1 == |c.buffer| then 0 else c.index + 1;
    Counter(c.buffer[i := value], i)
  }

  /** `next()` without an argument writes 0. */
  function NextZero(c: Counter): (r: Counter)
    requires Valid(c)
    ensures Valid(r) && |r.buffer| == |c.buffer|
    ensures r.index == (c.index + 1) % |c.buffer|
    ensures r.buffer[r.index] == 0
    ensures forall i :: 0 <= i < |c.buffer| && i != r.index ==> r.buffer[i] == c.buffer[i]
  {
    Next(c, 0)
  }

  /** `next(vs[0]); next(vs[1]); ...` in order. */
  function NextAll(c: Counter, vs: seq<int>): (r: Counter)
    requires Valid(c)
    ensures Valid(r) && |r.buffer| == |c.buffer|
    decreases |vs|
  {
    if |vs| == 0 then c else Next(NextAll(c, vs[..|vs| - 1]), vs[|vs| - 1])
  }

  /** The slot the `j`-th of a run of `next` calls writes, for a run starting at cursor `start`. */
  function Slot(start: nat, j: nat, capacity: nat): (k: nat)
    requires capacity > 0
    ensures k < capacity
  {
    (start + 1 + j) % capacity
  }

  lemma MulAtLeast(k: int, n: int)
    requires n > 0
    ensures k >= 1 ==> k * n >= n
    ensures k <= -1 ==> k * n <= -n
  {
    if k >= 1 {
      assert k * n == (k - 1) * n + n;
      assert (k - 1) * n >= 0;
    }
    if k <= -1 {
      assert k * n == (k + 1) * n - n;
      assert (-(k + 1)) * n >= 0;
    }
  }

  /** Euclidean division is determined by any decomposition with a remainder in range. */
  lemma ModUnique(x: int, q: int, r: int, n: int)
    requires n > 0 && 0 <= r < n && x == q * n + r
    ensures x % n == r && x / n == q
  {
    var q', r' := x / n, x % n;
    assert x == q' * n + r';
    var k := q - q';
    assert k * n == r' - r by {
      assert q * n - q' * n == (q - q') * n;
    }
    MulAtLeast(k, n);
  }

  lemma ModDistinct(x: nat, d: nat, n: nat)
    requires 0 < d < n
    ensures (x + d) % n != x % n
  {
    var q, r := x / n, x % n;
    ModUnique(x, q, r, n);
    if r + d < n {
      ModUnique(x + d, q, r + d, n);
    } else {
      ModUnique(x + d, q + 1, r + d - n, n);
    }
  }

  lemma SlotsDistinct(start: nat, j1: nat, j2: nat, capacity: nat)
    requires capacity > 0 && j1 < j2 && j2 - j1 < capacity
    ensures Slot(start, j1, capacity) != Slot(start, j2, capacity)
  {
    ModDistinct(start + 1 + j1, j2 - j1, capacity);
  }

  lemma ModSucc(x: nat, n: nat)
    requires n > 0
    ensures (x % n + 1) % n == (x + 1) % n
  {
    var q, r := x / n, x % n;
    ModUnique(x, q, r, n);
    if r + 1 < n {
      ModUnique(x + 1, q, r + 1, n);
      ModUnique(r + 1, 0, r + 1, n);
    } else {
      ModUnique(x + 1, q + 1, 0, n);
      ModUnique(r + 1, 1, 0, n);
    }
  }

  /** The window facts below, for a counter `d` reached from `c` by the run `vs`. */
  predicate Window(c: Counter, vs: seq<int>, d: Counter)
    requires Valid(c) && |d.buffer| == |c.buffer|
  {
    && d.index == (c.index + |vs|) % |c.buffer|
    && (forall j :: 0 <= j < |vs| && |vs| - j <= |c.buffer| ==>
          d.buffer[Slot(c.index, j, |c.buffer|)] == vs[j])
    && (forall j :: |vs| <= j < |c.buffer| ==>
          d.buffer[Slot(c.index, j, |c.buffer|)] == c.buffer[Slot(c.index, j, |c.buffer|)])
  }

  /** One more `next(v)` extends the window by `v`. */
  lemma WindowStep(c: Counter, vs: seq<int>, prev: Counter, v: int)
    requires Valid(c) && Valid(prev) && |prev.buffer| == |c.buffer| && Window(c, vs, prev)
    ensures Window(c, vs + [v], Next(prev, v))
  {
    var n := |c.buffer|;
    var m := |vs|;
    var ws := vs + [v];
    var r := Next(prev, v);
    assert r.index == Slot(c.index, m, n) by {
      ModSucc(c.index + m, n);
    }
    forall j | 0 <= j < |ws| && |ws| - j <= n
      ensures r.buffer[Slot(c.index, j, n)] == ws[j]
    {
      if j < m {
        assert Slot(c.index, j, n) != Slot(c.index, m, n) by {
          SlotsDistinct(c.index, j, m, n);
        }
      }
    }
    forall j | |ws| <= j < n
      ensures r.buffer[Slot(c.index, j, n)] == c.buffer[Slot(c.index, j, n)]
    {
      assert Slot(c.index, m, n) != Slot(c.index, j, n) by {
        SlotsDistinct(c.index, m, j, n);
      }
    }
  }

  /**
   After any run of `next` calls: the cursor has moved by the run's length
   (modulo the capacity), each of the last `capacity` values sits in the slot
   it was written to, and slots the run has not reached are unchanged.
   */
  lemma {:induction false} NextAllWindow(c: Counter, vs: seq<int>)
    requires Valid(c)
    ensures NextAll(c, vs).index == (c.index + |vs|) % |c.buffer|
    ensures forall j :: 0 <= j < |vs| && |vs| - j <= |c.buffer| ==>
              NextAll(c, vs).buffer[Slot(c.index, j, |c.buffer|)] == vs[j]
    ensures forall j :: |vs| <= j < |c.buffer| ==>
              NextAll(c, vs).buffer[Slot(c.index, j, |c.buffer|)] == c.buffer[Slot(c.index, j, |c.buffer|)]
    decreases |vs|
  {
    if |vs| == 0 {
      assert c.index % |c.buffer| == c.index by {
        ModUnique(c.index, 0, c.index, |c.buffer|);
      }
    } else {
      var m := |vs| - 1;
      NextAllWindow(c, vs[..m]);
      assert vs[..m] + [vs[m]] == vs;
      WindowStep(c, vs[..m], NextAll(c, vs[..m]), vs[m]);
      assert Window(c, vs, NextAll(c, vs));
    }
  }

  /**
   `capacity` consecutive `next` calls bring the cursor back where it started
   and leave exactly the written values, in rotation order from the slot after
   the original cursor.
   */
  lemma FullRotation(c: Counter, vs: seq<int>)
    requires Valid(c) && |vs| == |c.buffer|
    ensures NextAll(c, vs).index == c.index
    ensures forall j :: 0 <= j < |vs| ==> NextAll(c, vs).buffer[Slot(c.index, j, |vs|)] == vs[j]
  {
    NextAllWindow(c, vs);
    var n := |vs|;
    ModUnique(c.index + n, 1, c.index, n);
  }

  /** The last of `capacity` consecutive `next` calls writes the slot the run started on. */
  lemma SlotLast(start: nat, capacity: nat)
    requires start < capacity
    ensures Slot(start, capacity - 1, capacity) == start
  {
    ModUnique(start + capacity, 1, start, capacity);
  }

  /** One instance of the window: a slot the run has not reached keeps its value. */
  lemma UnreachedSlot(c: Counter, vs: seq<int>, j: nat)
    requires Valid(c) && |vs| <= j < |c.buffer|
    ensures NextAll(c, vs).buffer[Slot(c.index, j, |c.buffer|)] == c.buffer[Slot(c.index, j, |c.buffer|)]
  {
    NextAllWindow(c, vs);
  }

  /** One instance of the window: a slot among the last `capacity` writes holds the value written. */
  lemma WrittenSlot(c: Counter, vs: seq<int>, j: nat)
    requires Valid(c) && j < |vs| && |vs| - j <= |c.buffer|
    ensures NextAll(c, vs).buffer[Slot(c.index, j, |c.buffer|)] == vs[j]
  {
    NextAllWindow(c, vs);
  }

  /**
   The slot under the cursor keeps its value while fewer than `capacity`
   `next` calls run, and the `capacity`-th call overwrites it.
   */
  lemma CursorSlotAfter(c: Counter, vs: seq<int>)
    requires Valid(c) && |vs| <= |c.buffer|
    ensures |vs| < |c.buffer| ==> NextAll(c, vs).buffer[c.index] == c.buffer[c.index]
    ensures |vs| == |c.buffer| ==> NextAll(c, vs).buffer[c.index] == vs[|vs| - 1]
  {
    SlotLast(c.index, |c.buffer|);
    if |vs| < |c.buffer| {
      UnreachedSlot(c, vs, |c.buffer| - 1);
    } else {
      WrittenSlot(c, vs, |c.buffer| - 1);
    }
  }

  /**
   An amount added with `increase` stays in its slot while fewer than
   `capacity` further `next` calls run, and the `capacity`-th call
   overwrites it with the value it writes.
   */
  lemma IncreaseSurvivesRotation(c: Counter, value: int, vs: seq<int>)
    requires Valid(c) && |vs| <= |c.buffer|
    ensures |vs| < |c.buffer| ==>
              NextAll(Increase(c, value), vs).buffer[c.index] == c.buffer[c.index] + value
    ensures |vs| == |c.buffer| ==> NextAll(Increase(c, value), vs).buffer[c.index] == vs[|vs| - 1]
  {
    CursorSlotAfter(Increase(c, value), vs);
  }
}

=== FILE: Lerp.dfy ===
/** Linear blending of numbers and positions (src/utils/lerp.ts), over exact reals. */
module Lerp {
  import opened Types

  function Lerp(a: real, b: real, mix: real): (r: real)
    ensures mix == 0.0 ==> r == a
    ensures mix == 1.0 ==> r == b
  {
    a + (b - a) * mix
  }

  lemma ScaledBetween(d: real, mix: real)
    requires 0.0 <= d && 0.0 <= mix <= 1.0
    ensures 0.0 <= d * mix <= d
  {
    assert d * mix <= d * 1.0;
  }

  /** A mix between 0 and 1 lands between the two ends, whichever of them is larger. */
  lemma LerpBetween(a: real, b: real, mix: real)
    requires 0.0 <= mix <= 1.0
    ensures a <= b ==> a <= Lerp(a, b, mix) <= b
    ensures b <= a ==> b <= Lerp(a, b, mix) <= a
  {
    var t := (b - a) * mix;
    assert Lerp(a, b, mix) == a + t;
    if a <= b {
      ScaledBetween(b - a, mix);
    } else {
      ScaledBetween(a - b, mix);
      assert (a - b) * mix == -t;
    }
  }

  function LerpPosition(p: Position, q: Position, mix: real): (r: Position)
    ensures mix == 0.0 ==> r == p
    ensures mix == 1.0 ==> r == q
  {
    Position(Lerp(p.x, q.x, mix), Lerp(p.y, q.y, mix))
  }
}

=== FILE: NumberFormat.dfy ===
/**
 Decimal rendering of a natural number, as a JavaScript template literal
 `${n}` renders a non-negative integer, and the player ids built from it.
 */
module NumberFormat {

  function DigitChar(d: nat): (c: char)
    requires d < 10
    ensures '0' <= c <= '9'
  {
    "0123456789"[d]
  }

  /** Decimal digits of `n`, most significant first, without leading zeros. */
  function NatToString(n: nat): (s: string)
    ensures 1 <= |s|
    ensures forall i :: 0 <= i < |s| ==> '0' <= s[i] <= '9'
    ensures n >= 10 ==> 2 <= |s|
    ensures s[|s| - 1] == DigitChar(n % 10)
  {
    if n < 10 then [DigitChar(n)] else NatToString(n / 10) + [DigitChar(n % 10)]
  }

  lemma DigitCharInjective(a: nat, b: nat)
    requires a < 10 && b < 10 && DigitChar(a) == DigitChar(b)
    ensures a == b
  {
  }

  /** Two different numbers never render to the same text. */
  lemma {:induction false} NatToStringInjective(n: nat, m: nat)
    requires NatToString(n) == NatToString(m)
    ensures n == m
  {
    var s, t := NatToString(n), NatToString(m);
    if n < 10 && m < 10 {
      DigitCharInjective(n, m);
    } else if n >= 10 && m >= 10 {
      assert s == NatToString(n / 10) + [DigitChar(n % 10)];
      assert t == NatToString(m / 10) + [DigitChar(m % 10)];
      assert NatToString(n / 10) == s[..|s| - 1];
      assert NatToString(m / 10) == t[..|t| - 1];
      NatToStringInjective(n / 10, m / 10);
      DigitCharInjective(n % 10, m % 10);
    }
  }

  /** The id the server gives its `n`-th player: "id:<n>". */
  function PlayerIdOf(n: nat): (id: string)
    ensures |id| > 3 && id[..3] == "id:"
    ensures id[3..] == NatToString(n)
  {
    "id:" + NatToString(n)
  }

  lemma PlayerIdOfInjective(n: nat, m: nat)
    requires PlayerIdOf(n) == PlayerIdOf(m)
    ensures n == m
  {
    assert NatToString(n) == PlayerIdOf(n)[3..];
    NatToStringInjective(n, m);
  }

  lemma PlayerIdOfOne()
    ensures PlayerIdOf(1) == "id:1"
  {
    assert NatToString(1) == "1";
  }
}

=== FILE: Scenarios.dfy ===
/** Two end-to-end runs of the server: two connections, and one update travelling through the jitter buffer. */
module Scenarios {
  import opened Wrappers
  import opened Types
  import opened NumberFormat
  import opened ServerPlayer
  import opened Server
  import Timers

  /** Two connections get "id:1" and "id:2", in order, with the first two palette colours. */
  lemma TwoPlayersAttach(cfg: Config, spawn1: Position, spawn2: Position)
    requires ValidConfig(cfg)
    ensures var s := AttachPlayerLink(AttachPlayerLink(Empty(), cfg, spawn1), cfg, spawn2);
            && |GameStateOf(s).players| == 2
            && GameStateOf(s).players[0] == PlayerState("id:1", "red", spawn1)
            && GameStateOf(s).players[1] == PlayerState("id:2", "blue", spawn2)
  {
    EmptyValid(cfg);
    var s1 := AttachPlayerLink(Empty(), cfg, spawn1);
    var s2 := AttachPlayerLink(s1, cfg, spawn2);
    PlayerIdOfOne();
    assert NatToString(2) == "2";
    assert GameStateOf(s2).players == GameStateOf(s1).players + [s2.players[1].playerState];
  }

  /** The shape of a server holding one anchored, idle first player with a single buffered update. */
  predicate OneWaitingUpdate(s: ServerState, cfg: Config, cursor: nat, u: PlayerUpdate, at: Position) {
    && Server.Valid(s, cfg) && |s.players| == 1
    && s.players[0].playerId == PROCESSED_PLAYER_ID
    && s.players[0].cursor == Some(cursor)
    && s.players[0].buffer == [u] && s.players[0].progress == 0
    && s.players[0].playerState.position == at
  }

  /** A tick before the cursor's tick leaves the waiting update and the position alone. */
  lemma TickBeforeCursor(s: ServerState, cfg: Config, cursor: nat, u: PlayerUpdate, at: Position, tickId: nat)
    requires OneWaitingUpdate(s, cfg, cursor, u, at) && tickId < cursor
    ensures OneWaitingUpdate(Tick(s, cfg, tickId), cfg, cursor, u, at)
  {
    var p := s.players[0];
    assert ApplyTickChanges(s, cfg, tickId).players[0] == StepPlayerAsWritten(p, cfg, tickId);
  }

  /** The tick the cursor points at applies the waiting update. */
  lemma TickAtCursor(s: ServerState, cfg: Config, cursor: nat, u: PlayerUpdate, at: Position)
    requires OneWaitingUpdate(s, cfg, cursor, u, at)
    ensures GameStateOf(Tick(s, cfg, cursor)).players[0].position == u.position
  {
    var p := s.players[0];
    var q := RecordSurplus(p, cfg);
    assert ApplyTickChanges(s, cfg, cursor).players[0] == StepPlayerAsWritten(p, cfg, cursor) == Consume(q, cfg);
    assert q.history.buffer[q.history.index] == 0;
    assert !HaveExtraFrame(q.history);
  }

  /** The loop's callback for a tick before the cursor's: it waits, and schedules its successor `id`. */
  lemma CallbackBeforeCursor(s: ServerState, cfg: Config, cursor: nat, u: PlayerUpdate, at: Position,
                             c: Timers.TimeoutId, now: real, id: Timers.TimeoutId)
    requires OneWaitingUpdate(s, cfg, cursor, u, at)
    requires s.timer.Some? && c in s.timer.value.pending && s.timer.value.tickId < cursor
    ensures var r := TimerCallback(s, cfg, c, now, now, id);
            && OneWaitingUpdate(r, cfg, cursor, u, at)
            && r.timer.Some? && id in r.timer.value.pending && r.timer.value.tickId == s.timer.value.tickId + 1
  {
    TickBeforeCursor(s, cfg, cursor, u, at, s.timer.value.tickId);
  }

  /** The loop's callback for the cursor's tick: it applies the waiting update and broadcasts the result. */
  lemma CallbackAtCursor(s: ServerState, cfg: Config, cursor: nat, u: PlayerUpdate, at: Position,
                         c: Timers.TimeoutId, now: real, id: Timers.TimeoutId)
    requires OneWaitingUpdate(s, cfg, cursor, u, at)
    requires s.timer.Some? && c in s.timer.value.pending && s.timer.value.tickId == cursor
    ensures var r := TimerCallback(s, cfg, c, now, now, id);
            && GameStateOf(r).players[0].position == u.position
            && r.players[0].outbox[|r.players[0].outbox| - 1] == GameStateUpdate(GameStateOf(r))
  {
    TickAtCursor(s, cfg, cursor, u, at);
  }

  /**
   The first update of the first player, received before the loop's first
   tick, waits out the initial buffer offset: the callbacks of ticks 0 to 3
   leave the player where it spawned, and the callback of tick 4 applies the
   update, which the broadcast of that tick carries.
   */
  lemma UpdateAppliedAfterOffset(cfg: Config, spawn: Position, position: Position, now: real,
                                 id: Timers.TimeoutId)
    requires ValidConfig(cfg)
    ensures var s0 := AttachPlayerLink(StartGameLoop(Empty(), cfg, id), cfg, spawn);
            var s1 := Server.OnPlayerMessage(s0, cfg, 0, PlayerPositionUpdate(position), now);
            var t1 := TimerCallback(s1, cfg, id, now, now, id + 1);
            var t2 := TimerCallback(t1, cfg, id + 1, now, now, id + 2);
            var t3 := TimerCallback(t2, cfg, id + 2, now, now, id + 3);
            var waited := TimerCallback(t3, cfg, id + 3, now, now, id + 4);
            var s2 := TimerCallback(waited, cfg, id + 4, now, now, id + 5);
            && GameStateOf(waited).players[0].position == spawn
            && GameStateOf(s2).players[0].position == position
            && s2.players[0].outbox[|s2.players[0].outbox| - 1] == GameStateUpdate(GameStateOf(s2))
  {
    EmptyValid(cfg);
    PlayerIdOfOne();
    var u := PlayerUpdate(position);
    var c := SERVER_INITIAL_BUFFER_OFFSET;
    var s0 := AttachPlayerLink(StartGameLoop(Empty(), cfg, id), cfg, spawn);
    var s1 := Server.OnPlayerMessage(s0, cfg, 0, PlayerPositionUpdate(position), now);
    assert OneWaitingUpdate(s1, cfg, c, u, spawn);
    CallbackBeforeCursor(s1, cfg, c, u, spawn, id, now, id + 1);
    var t1 := TimerCallback(s1, cfg, id, now, now, id + 1);
    CallbackBeforeCursor(t1, cfg, c, u, spawn, id + 1, now, id + 2);
    var t2 := TimerCallback(t1, cfg, id + 1, now, now, id + 2);
    CallbackBeforeCursor(t2, cfg, c, u, spawn, id + 2, now, id + 3);
    var t3 := TimerCallback(t2, cfg, id + 2, now, now, id + 3);
    CallbackBeforeCursor(t3, cfg, c, u, spawn, id + 3, now, id + 4);
    var waited := TimerCallback(t3, cfg, id + 3, now, now, id + 4);
    assert waited.timer.value.tickId == c;
    CallbackAtCursor(waited, cfg, c, u, spawn, id + 4, now, id + 5);
  }
}

=== FILE: Server.dfy ===
/**
 The authoritative server (src/engine/Server.ts): the registry of connected
 players, the per-tick pass over their jitter buffers, the broadcast of the
 game state, and teardown.

 Each connection's `networkInterface.send` is modelled as appending to that
 player's `outbox`. In Server.ts `gameState.players[i]` is the very object
 held as `onlinePlayers[i].playerState`, so the game state is derived from
 the records rather than stored twice.
 */
module Server {
  import opened Wrappers
  import opened Types
  import opened NumberFormat
  import opened ServerPlayer
  import Timers

  /** The cyclic colour palette of new players. */
  const COLORS: seq<string> := ["red", "blue", "yellow", "orange"]

  /** The only player the tick pass currently processes (a filter Server.ts marks as temporary). */
  const PROCESSED_PLAYER_ID: string := "id:1"

  datatype ServerState = ServerState(
    players: seq<PlayerRecord>,
    lastPlayerId: nat,
    timer: Option<Timers.IntervalTimer>)

  /** A server before any connection and before its loop is started. */
  function Empty(): (s: ServerState)
    ensures s.players == [] && s.lastPlayerId == 0 && s.timer == None
  {
    ServerState([], 0, None)
  }

  /** The game state every client is shown: the players' states in connection order. */
  function GameStateOf(s: ServerState): (g: GameState)
    ensures |g.players| == |s.players|
    ensures forall i :: 0 <= i < |s.players| ==> g.players[i] == s.players[i].playerState
  {
    GameState(seq(|s.players|, i requires 0 <= i < |s.players| => s.players[i].playerState))
  }

  /**
   The registry invariant: the `i`-th connection (from 0) is "id:<i+1>", the
   id counter equals the number of connections, every record is well formed,
   and the loop's timer holds at most one scheduled callback, tracked once
   its handle is recorded.
   */
  predicate Valid(s: ServerState, cfg: Config) {
    && ValidConfig(cfg)
    && s.lastPlayerId == |s.players|
    && (forall i :: 0 <= i < |s.players| ==>
          && s.players[i].playerId == PlayerIdOf(i + 1)
          && s.players[i].playerState.playerId == s.players[i].playerId
          && ServerPlayer.Valid(s.players[i], cfg))
    && (s.timer.Some? ==> Timers.SingleCallback(s.timer.value))
  }

  lemma EmptyValid(cfg: Config)
    requires ValidConfig(cfg)
    ensures Valid(Empty(), cfg)
  {
  }

  /** No two connections share an id. */
  lemma IdsDistinct(s: ServerState, cfg: Config, i: nat, j: nat)
    requires Valid(s, cfg) && i < |s.players| && j < |s.players| && i != j
    ensures s.players[i].playerId != s.players[j].playerId
  {
    if s.players[i].playerId == s.players[j].playerId {
      PlayerIdOfInjective(i + 1, j + 1);
    }
  }

  /** Only the first connection carries the id the tick pass processes. */
  lemma OnlyFirstIsProcessed(s: ServerState, cfg: Config, i: nat)
    requires Valid(s, cfg) && i < |s.players|
    ensures s.players[i].playerId == PROCESSED_PLAYER_ID <==> i == 0
  {
    PlayerIdOfOne();
    if s.players[i].playerId == PROCESSED_PLAYER_ID {
      PlayerIdOfInjective(i + 1, 1);
    }
  }

  /**
   `attachPlayerLink`: the next sequential id, the next palette colour, a
   spawn position (an input here), a fresh record appended after all
   existing ones, and an `INITIAL` message carrying the id and the game
   state that already includes the new player.
   */
  function AttachPlayerLink(s: ServerState, cfg: Config, spawn: Position): (r: ServerState)
    requires Valid(s, cfg)
    ensures Valid(r, cfg)
    ensures r.lastPlayerId == s.lastPlayerId + 1
    ensures |r.players| == |s.players| + 1 && r.players[..|s.players|] == s.players
    ensures r.timer == s.timer
    ensures var p := r.players[|s.players|];
            && p.playerId == PlayerIdOf(s.lastPlayerId + 1)
            && p.playerState == PlayerState(p.playerId, COLORS[|s.players| % |COLORS|], spawn)
            && p.outbox == [Initial(p.playerId, GameStateOf(r))]
            && p.buffer == [] && p.cursor == None && p.progress == 0
    ensures GameStateOf(r).players == GameStateOf(s).players + [r.players[|s.players|].playerState]
  {
    var id := PlayerIdOf(s.lastPlayerId + 1);
    var state := PlayerState(id, COLORS[|s.players| % |COLORS|], spawn);
    var record := NewRecord(cfg, id, state);
    var players := s.players + [record];
    var snapshot := GameState(seq(|players|, i requires 0 <= i < |players| => players[i].playerState));
    var r := s.(players := s.players + [record.(outbox := [Initial(id, snapshot)])],
                lastPlayerId := s.lastPlayerId + 1);
    assert GameStateOf(r) == snapshot;
    assert GameStateOf(r).players == GameStateOf(s).players + [state];
    assert Valid(r, cfg) by {
      forall i | 0 <= i < |r.players|
        ensures r.players[i].playerId == PlayerIdOf(i + 1)
        ensures r.players[i].playerState.playerId == r.players[i].playerId
        ensures ServerPlayer.Valid(r.players[i], cfg)
      {
        if i < |s.players| {
          assert r.players[i] == s.players[i];
        }
      }
    }
    r
  }

  /** The number of ticks the loop's timer has completed; read only while the loop exists. */
  function CompletedTicks(s: ServerState): nat {
    if s.timer.Some? then s.timer.value.tickId else 0
  }

  /**
   A message from the `i`-th connection, handled by that player's record.
   The first update anchors the cursor on the loop timer's tick count, so
   the loop must have been started by then.
   */
  function OnPlayerMessage(s: ServerState, cfg: Config, i: nat, msg: ClientMessage, now: real)
    : (r: ServerState)
    requires Valid(s, cfg) && i < |s.players|
    requires s.players[i].cursor.None? ==> s.timer.Some?
    ensures Valid(r, cfg)
    ensures |r.players| == |s.players| && r.lastPlayerId == s.lastPlayerId && r.timer == s.timer
    ensures r.players[i] == ServerPlayer.OnPlayerMessage(s.players[i], cfg, msg, CompletedTicks(s), now)
    ensures s.players[i].cursor.None? ==>
              r.players[i].cursor == Some(s.timer.value.tickId + SERVER_INITIAL_BUFFER_OFFSET)
    ensures forall j :: 0 <= j < |s.players| && j != i ==> r.players[j] == s.players[j]
    ensures GameStateOf(r) == GameStateOf(s)
  {
    var p := ServerPlayer.OnPlayerMessage(s.players[i], cfg, msg, CompletedTicks(s), now);
    var r := s.(players := s.players[i := p]);
    assert GameStateOf(r) == GameStateOf(s);
    r
  }

  /** The loop body for one player: only the processed id, and only once anchored. */
  function TickPlayer(p: PlayerRecord, cfg: Config, tickId: nat): (r: PlayerRecord)
    requires ServerPlayer.Valid(p, cfg)
    ensures ServerPlayer.Valid(r, cfg)
    ensures p.playerId != PROCESSED_PLAYER_ID || p.cursor.None? ==> r == p
    ensures p.playerId == PROCESSED_PLAYER_ID && p.cursor.Some? ==> r == StepPlayerAsWritten(p, cfg, tickId)
    ensures r.playerId == p.playerId && r.playerState.playerId == p.playerState.playerId
    ensures r.outbox == p.outbox
  {
    if p.playerId != PROCESSED_PLAYER_ID || p.cursor.None? then p else StepPlayerAsWritten(p, cfg, tickId)
  }

  /** `applyTickChanges`: run the per-player step over every connection, in order. */
  function ApplyTickChanges(s: ServerState, cfg: Config, tickId: nat): (r: ServerState)
    requires Valid(s, cfg)
    ensures Valid(r, cfg)
    ensures |r.players| == |s.players| && r.lastPlayerId == s.lastPlayerId && r.timer == s.timer
    ensures forall i :: 0 <= i < |s.players| ==> r.players[i] == TickPlayer(s.players[i], cfg, tickId)
    ensures forall i :: 1 <= i < |s.players| ==> r.players[i] == s.players[i]
  {
    var r := s.(players := seq(|s.players|, i requires 0 <= i < |s.players| =>
                                 TickPlayer(s.players[i], cfg, tickId)));
    forall i | 1 <= i < |s.players|
      ensures r.players[i] == s.players[i]
    {
      OnlyFirstIsProcessed(s, cfg, i);
    }
    r
  }

  /** `broadcastState`: one `GAME_STATE_UPDATE` with the current game state to every connection. */
  function BroadcastState(s: ServerState): (r: ServerState)
    ensures |r.players| == |s.players| && r.lastPlayerId == s.lastPlayerId && r.timer == s.timer
    ensures forall i :: 0 <= i < |s.players| ==>
              r.players[i] == s.players[i].(outbox := s.players[i].outbox + [GameStateUpdate(GameStateOf(s))])
    ensures GameStateOf(r) == GameStateOf(s)
  {
    var message := GameStateUpdate(GameStateOf(s));
    var r := s.(players := seq(|s.players|, i requires 0 <= i < |s.players| =>
                                 s.players[i].(outbox := s.players[i].outbox + [message])));
    assert GameStateOf(r) == GameStateOf(s);
    r
  }

  /** `tick`: nothing without connections; otherwise the tick pass, then the broadcast. */
  function Tick(s: ServerState, cfg: Config, tickId: nat): (r: ServerState)
    requires Valid(s, cfg)
    ensures Valid(r, cfg)
    ensures |s.players| == 0 ==> r == s
    ensures |r.players| == |s.players| && r.lastPlayerId == s.lastPlayerId && r.timer == s.timer
    ensures forall i :: 0 <= i < |s.players| ==>
              r.players[i].outbox == s.players[i].outbox + [GameStateUpdate(GameStateOf(ApplyTickChanges(s, cfg, tickId)))]
    ensures forall i :: 0 <= i < |s.players| ==>
              r.players[i] == ApplyTickChanges(s, cfg, tickId).players[i].(outbox := r.players[i].outbox)
  {
    if |s.players| == 0 then s
    else
      var applied := ApplyTickChanges(s, cfg, tickId);
      var r := BroadcastState(applied);
      assert Valid(r, cfg) by {
        forall i | 0 <= i < |r.players|
          ensures ServerPlayer.Valid(r.players[i], cfg)
        {
          assert r.players[i] == applied.players[i].(outbox := r.players[i].outbox);
        }
      }
      r
  }

  /**
   As written, a stalled first player stays stalled through the whole tick:
   its buffer and the position every client is shown do not change, and at
   the next tick it is behind again.
   */
  lemma TickStallsAsWritten(s: ServerState, cfg: Config, tickId: nat)
    requires Valid(s, cfg) && |s.players| > 0 && Stalled(s.players[0], cfg, tickId)
    ensures var r := Tick(s, cfg, tickId);
            && Stalled(r.players[0], cfg, tickId + 1)
            && r.players[0].buffer == s.players[0].buffer
            && GameStateOf(r).players[0] == GameStateOf(s).players[0]
  {
    PlayerIdOfOne();
    ResyncStallsAsWritten(s.players[0], cfg, tickId);
    assert ApplyTickChanges(s, cfg, tickId).players[0] == StepPlayerAsWritten(s.players[0], cfg, tickId);
  }

  /**
   `startGameLoop`: a fresh timer at the server tick interval, started as
   Server.ts starts it, under host handle `id` that the timer does not record.
   */
  function StartGameLoop(s: ServerState, cfg: Config, id: Timers.TimeoutId): (r: ServerState)
    requires Valid(s, cfg)
    ensures Valid(r, cfg)
    ensures r.timer.Some? && r.timer.value.tickId == 0 && r.timer.value.startedAt.None?
    ensures r.timer.value.intervalMs == SERVER_UPDATES_INTERVAL
    ensures r.timer.value.pending == {id} && r.timer.value.timeoutId.None?
    ensures r.players == s.players && r.lastPlayerId == s.lastPlayerId
  {
    Timers.SingleCallbackPreserved(Timers.New(SERVER_UPDATES_INTERVAL), SERVER_UPDATES_INTERVAL, id, 0.0);
    s.(timer := Some(Timers.StartAsWritten(Timers.New(SERVER_UPDATES_INTERVAL), id)))
  }

  /**
   The host runs the loop's scheduled callback `c`. The first one fixes the
   start time (`startNow`); then `tick` runs the tick pass, which reads the
   number of ticks completed before it, the timer counts the tick and, at
   time `now`, schedules the next callback under handle `id`.
   */
  function TimerCallback(s: ServerState, cfg: Config, c: Timers.TimeoutId, startNow: real, now: real,
                         id: Timers.TimeoutId): (r: ServerState)
    requires Valid(s, cfg) && s.timer.Some? && c in s.timer.value.pending
    ensures Valid(r, cfg)
    ensures r.timer.Some? && r.timer.value.tickId == s.timer.value.tickId + 1
    ensures r.timer.value.pending == {id} && r.timer.value.timeoutId == Some(id)
    ensures r.timer.value.startedAt == if s.timer.value.startedAt.None? then Some(startNow) else s.timer.value.startedAt
    ensures r.players == Tick(s, cfg, s.timer.value.tickId).players && r.lastPlayerId == s.lastPlayerId
  {
    var fired := Timers.Fire(s.timer.value, c);
    var t := if fired.startedAt.None? then Timers.Begin(fired, startNow) else fired;
    Timers.SingleCallbackPreserved(s.timer.value, SERVER_UPDATES_INTERVAL, c, startNow);
    Timers.SingleCallbackPreserved(fired, SERVER_UPDATES_INTERVAL, id, startNow);
    Timers.SingleCallbackPreserved(t, SERVER_UPDATES_INTERVAL, id, now);
    var ticked := Tick(s.(timer := Some(t)), cfg, t.tickId);
    ticked.(timer := Some(Timers.Tick(t, now, id)))
  }

  /** As written, a stalled first player stays stalled from one loop callback to the next. */
  lemma CallbackStallsAsWritten(s: ServerState, cfg: Config, c: Timers.TimeoutId, startNow: real, now: real,
                                id: Timers.TimeoutId)
    requires Valid(s, cfg) && s.timer.Some? && c in s.timer.value.pending
    requires |s.players| > 0 && Stalled(s.players[0], cfg, s.timer.value.tickId)
    ensures var r := TimerCallback(s, cfg, c, startNow, now, id);
            && Stalled(r.players[0], cfg, r.timer.value.tickId)
            && r.players[0].buffer == s.players[0].buffer
            && GameStateOf(r).players[0] == GameStateOf(s).players[0]
  {
    TickStallsAsWritten(s, cfg, s.timer.value.tickId);
  }

  /**
   `destroy`: stop the loop's timer and drop it. The result pairs the new
   server with the stopped timer, if there was one. Stopping cancels the
   callback whose handle the timer recorded; one it never recorded stays
   with the host.
   */
  function Destroy(s: ServerState, cfg: Config): (r: (ServerState, Option<Timers.IntervalTimer>))
    requires Valid(s, cfg)
    ensures Valid(r.0, cfg)
    ensures r.0 == s.(timer := None)
    ensures s.timer.None? ==> r.1 == None
    ensures s.timer.Some? ==> r.1.Some? && r.1.value.timeoutId == None && |r.1.value.pending| <= 1
    ensures s.timer.Some? && s.timer.value.timeoutId.Some? ==> r.1.value.pending == {}
    ensures s.timer.Some? && s.timer.value.timeoutId.None? ==> r.1.value.pending == s.timer.value.pending
  {
    match s.timer
    case Some(t) =>
      Timers.SingleCallbackPreserved(t, SERVER_UPDATES_INTERVAL, 1, 0.0);
      (s.(timer := None), Some(Timers.Stop(t)))
    case None => (s, None)
  }

  lemma DestroyIdempotent(s: ServerState, cfg: Config)
    requires Valid(s, cfg)
    ensures Destroy(Destroy(s, cfg).0, cfg).0 == Destroy(s, cfg).0
    ensures Destroy(Destroy(s, cfg).0, cfg).1 == None
  {
  }

  /**
   As written, destroying the server before its loop's first tick leaves
   that first callback scheduled: it will still run the tick chain.
   */
  lemma DestroyBeforeFirstTickAsWritten(s: ServerState, cfg: Config, id: Timers.TimeoutId)
    requires Valid(s, cfg)
    ensures Destroy(StartGameLoop(s, cfg, id), cfg).1 == Some(Timers.Stop(StartGameLoop(s, cfg, id).timer.value))
    ensures Destroy(StartGameLoop(s, cfg, id), cfg).1.value.pending == {id}
  {
  }
}

=== FILE: ServerPlayer.dfy ===
/**
 The server's per-player state (`ServerPlayerRepresentation` in
 src/engine/Server.ts): the jitter buffer of position updates, the
 consumption cursor, the skip-tick interpolation progress, the surplus
 history and the arrival-spread window, with the per-message and per-tick
 steps that change them.

 Interpolation progress is kept as a step count `progress`; the floating
 `interpolation` of Server.ts is `progress / interpolationSteps`.
 */
module ServerPlayer {
  import opened Wrappers
  import opened Types
  import opened Lerp
  import CyclicCounter

  /**
   Skip-tick tuning: the interpolation step is `1 / interpolationSteps`, and
   `preparationTicks` recent surplus samples must all show a spare update
   before an interpolation starts (it is the capacity of the history).
   */
  datatype Config = Config(interpolationSteps: nat, preparationTicks: nat)

  predicate ValidConfig(cfg: Config) {
    cfg.interpolationSteps >= 1 && cfg.preparationTicks >= 1
  }

  datatype PlayerRecord = PlayerRecord(
    playerId: string,
    playerState: PlayerState,
    lastUpdateTime: Option<real>,
    spreadList: seq<real>,
    spreadIndex: nat,
    spread: real,
    outbox: seq<ServerMessage>,
    buffer: seq<PlayerUpdate>,
    cursor: Option<nat>,
    progress: nat,
    history: CyclicCounter.Counter)

  function Sum(s: seq<real>): real {
    if |s| == 0 then 0.0 else s[0] + Sum(s[1..])
  }

  lemma {:induction false} SumUpdate(s: seq<real>, i: nat, v: real)
    requires i < |s|
    ensures Sum(s[i := v]) == Sum(s) - s[i] + v
  {
    if i > 0 {
      assert s[i := v][1..] == s[1..][i - 1 := v];
      SumUpdate(s[1..], i - 1, v);
    }
  }

  lemma {:induction false} SumZeros(n: nat)
    ensures Sum(seq(n, _ => 0.0)) == 0.0
  {
    if n > 0 {
      assert seq(n, _ => 0.0)[1..] == seq(n - 1, _ => 0.0);
      SumZeros(n - 1);
    }
  }

  /**
   What every record keeps between steps: a spread window of one slot per
   client update per second whose running total is its sum, a history of
   `preparationTicks` slots, and an interpolation that has not reached 1.
   */
  predicate Valid(p: PlayerRecord, cfg: Config) {
    && ValidConfig(cfg)
    && |p.spreadList| == CLIENT_UPDATES_RATE
    && p.spreadIndex < CLIENT_UPDATES_RATE
    && p.spread == Sum(p.spreadList)
    && CyclicCounter.Valid(p.history)
    && |p.history.buffer| == cfg.preparationTicks
    && p.progress < cfg.interpolationSteps
  }

  /** The record `attachPlayerLink` creates for a new connection. */
  function NewRecord(cfg: Config, playerId: string, playerState: PlayerState): (p: PlayerRecord)
    requires ValidConfig(cfg)
    ensures Valid(p, cfg)
    ensures p.playerId == playerId && p.playerState == playerState
    ensures p.buffer == [] && p.cursor == None && p.progress == 0 && p.lastUpdateTime == None
    ensures p.spreadIndex == 0 && p.spread == 0.0 && p.outbox == []
    ensures forall i :: 0 <= i < |p.spreadList| ==> p.spreadList[i] == 0.0
    ensures p.history == CyclicCounter.New(cfg.preparationTicks)
  {
    SumZeros(CLIENT_UPDATES_RATE);
    PlayerRecord(playerId, playerState, None, seq(CLIENT_UPDATES_RATE, _ => 0.0), 0, 0.0,
                 [], [], None, 0, CyclicCounter.New(cfg.preparationTicks))
  }

  /** JavaScript truthiness of an optional time stamp: defined and not zero. */
  predicate Truthy(t: Option<real>) {
    t.Some? && t.value != 0.0
  }

  /**
   A `PLAYER_POSITION_UPDATE` arriving at time `now` while the server has
   completed `tickId` ticks: buffer the payload, anchor the cursor on the
   first update, and fold the arrival spread into the window.
   */
  function OnPlayerMessage(p: PlayerRecord, cfg: Config, msg: ClientMessage, tickId: nat, now: real)
    : (r: PlayerRecord)
    requires Valid(p, cfg)
    ensures Valid(r, cfg)
    ensures r.buffer == p.buffer + [PlayerUpdate(msg.position)]
    ensures p.cursor.None? ==> r.cursor == Some(tickId + SERVER_INITIAL_BUFFER_OFFSET)
    ensures p.cursor.Some? ==> r.cursor == p.cursor
    ensures r.lastUpdateTime == Some(now)
    ensures !Truthy(p.lastUpdateTime) ==>
              r.spreadList == p.spreadList && r.spreadIndex == p.spreadIndex && r.spread == p.spread
    ensures Truthy(p.lastUpdateTime) ==>
              && r.spreadList[p.spreadIndex] == CLIENT_UPDATES_INTERVAL - (now - p.lastUpdateTime.value)
              && (forall i :: 0 <= i < |p.spreadList| && i != p.spreadIndex ==> r.spreadList[i] == p.spreadList[i])
              && r.spreadIndex == (p.spreadIndex + 1) % CLIENT_UPDATES_RATE
    ensures r.playerId == p.playerId && r.playerState == p.playerState && r.outbox == p.outbox
    ensures r.progress == p.progress && r.history == p.history
  {
    match msg
    case PlayerPositionUpdate(position) =>
      var anchored := p.(
        buffer := p.buffer + [PlayerUpdate(position)],
        cursor := if p.cursor.None? then Some(tickId + SERVER_INITIAL_BUFFER_OFFSET) else p.cursor,
        lastUpdateTime := Some(now));
      if Truthy(p.lastUpdateTime) then
        var spread := CLIENT_UPDATES_INTERVAL - (now - p.lastUpdateTime.value);
        var next := p.spreadIndex + 1;
        SumUpdate(p.spreadList, p.spreadIndex, spread);
        anchored.(
          spread := p.spread - p.spreadList[p.spreadIndex] + spread,
          spreadList := p.spreadList[p.spreadIndex := spread],
          spreadIndex := if next == CLIENT_UPDATES_RATE then 0 else next)
      else
        anchored
  }

  /** The buffer surplus one tick records: updates beyond the current one, one fewer while interpolating. */
  function Surplus(p: PlayerRecord): int {
    |p.buffer| - 1 + (if p.progress != 0 then -1 else 0)
  }

  /** The history slot under the cursor holds the surplus of the buffer as it is now. */
  predicate SampleMatchesBuffer(p: PlayerRecord)
    requires CyclicCounter.Valid(p.history)
  {
    p.history.buffer[p.history.index] == Surplus(p)
  }

  /** First act of every tick on an anchored player: record the surplus. */
  function RecordSurplus(p: PlayerRecord, cfg: Config): (r: PlayerRecord)
    requires Valid(p, cfg)
    ensures Valid(r, cfg) && SampleMatchesBuffer(r)
    ensures r.history == CyclicCounter.Next(p.history, Surplus(p))
    ensures r == p.(history := r.history)
  {
    p.(history := CyclicCounter.Next(p.history, Surplus(p)))
  }

  /** Cursor behind the tick: jump to the tick, plus the part of the initial offset the buffer does not cover. */
  function Resync(p: PlayerRecord, tickId: nat): (r: PlayerRecord)
    ensures r.cursor.Some? && r.cursor.value >= tickId
    ensures |p.buffer| >= SERVER_INITIAL_BUFFER_OFFSET ==> r.cursor == Some(tickId)
    ensures |p.buffer| < SERVER_INITIAL_BUFFER_OFFSET ==>
              r.cursor == Some(tickId + SERVER_INITIAL_BUFFER_OFFSET - |p.buffer|)
    ensures r == p.(cursor := r.cursor)
  {
    var shift := if SERVER_INITIAL_BUFFER_OFFSET - |p.buffer| > 0
                 then SERVER_INITIAL_BUFFER_OFFSET - |p.buffer| else 0;
    p.(cursor := Some(tickId + shift))
  }

  /** Every recent surplus sample shows at least one spare update. */
  predicate HaveExtraFrame(h: CyclicCounter.Counter) {
    forall i :: 0 <= i < |h.buffer| ==> h.buffer[i] >= 1
  }

  /** Take one spare update's credit out of every history slot. */
  function Debit(h: CyclicCounter.Counter): (r: CyclicCounter.Counter)
    ensures |r.buffer| == |h.buffer| && r.index == h.index
    ensures forall i :: 0 <= i < |h.buffer| ==> r.buffer[i] == h.buffer[i] - 1
  {
    h.(buffer := seq(|h.buffer|, i requires 0 <= i < |h.buffer| => h.buffer[i] - 1))
  }

  /** Remove the head of the buffer; it is the update this tick applies. */
  function Dequeue(p: PlayerRecord): (r: PlayerRecord)
    requires |p.buffer| > 0
    ensures [p.buffer[0]] + r.buffer == p.buffer
    ensures r == p.(buffer := r.buffer)
  {
    p.(buffer := p.buffer[1..])
  }

  /** An interpolation cannot continue once nothing is left to blend towards. */
  function AbortIfDrained(p: PlayerRecord): (r: PlayerRecord)
    ensures r.progress == 0 <==> (p.progress == 0 || |p.buffer| == 0)
    ensures r.progress != 0 ==> r.progress == p.progress
    ensures r == p.(progress := r.progress)
  {
    if p.progress != 0 && |p.buffer| == 0 then p.(progress := 0) else p
  }

  /**
   When idle and every history sample shows a spare update, start an
   interpolation at the first step and consume the credit from the history.
   */
  function MaybeStart(p: PlayerRecord): (r: PlayerRecord)
    ensures p.progress == 0 && HaveExtraFrame(p.history) ==>
              r == p.(progress := 1, history := Debit(p.history))
    ensures !(p.progress == 0 && HaveExtraFrame(p.history)) ==> r == p
  {
    if p.progress == 0 && HaveExtraFrame(p.history) then
      p.(progress := 1, history := Debit(p.history))
    else p
  }

  /**
   The interpolation ends once it passes 0.999: in exact arithmetic,
   `k / steps > 0.999`.
   */
  predicate Finishes(k: nat, steps: nat) {
    1000 * k > 999 * steps
  }

  /** For up to 1000 steps the 0.999 threshold ends the interpolation exactly when it reaches 1. */
  lemma FinishesAtOne(k: nat, steps: nat)
    requires 1 <= steps <= 1000
    ensures Finishes(k, steps) <==> k >= steps
  {
  }

  /**
   Set the position applied this tick. Idle: the dequeued update itself.
   Interpolating: a blend between it and the next buffered update at the
   current progress, then one step more; past the threshold the progress
   resets and that next update is dropped as well.
   */
  function Blend(p: PlayerRecord, cfg: Config, head: PlayerUpdate): (r: PlayerRecord)
    requires ValidConfig(cfg) && p.progress <= cfg.interpolationSteps
    requires p.progress != 0 ==> |p.buffer| > 0
    ensures p.progress == 0 ==> r == p.(playerState := p.playerState.(position := head.position))
    ensures p.progress != 0 ==>
              r.playerState == p.playerState.(position := LerpPosition(
                head.position, p.buffer[0].position,
                (p.progress as real) / (cfg.interpolationSteps as real)))
    ensures p.progress != 0 && Finishes(p.progress + 1, cfg.interpolationSteps) ==>
              r.progress == 0 && r.buffer == p.buffer[1..]
    ensures p.progress != 0 && !Finishes(p.progress + 1, cfg.interpolationSteps) ==>
              r.progress == p.progress + 1 && r.buffer == p.buffer
    ensures r.progress < cfg.interpolationSteps
    ensures r == p.(playerState := r.playerState, progress := r.progress, buffer := r.buffer)
  {
    if p.progress == 0 then
      p.(playerState := p.playerState.(position := head.position))
    else
      var mix := (p.progress as real) / (cfg.interpolationSteps as real);
      var position := LerpPosition(head.position, p.buffer[0].position, mix);
      var k := p.progress + 1;
      if Finishes(k, cfg.interpolationSteps) then
        p.(playerState := p.playerState.(position := position), progress := 0, buffer := p.buffer[1..])
      else
        p.(playerState := p.playerState.(position := position), progress := k)
  }

  /**
   The update read for blending always exists: after the dequeue, either an
   interpolation already running survived the drained-buffer reset, so the
   buffer is non-empty, or it starts now, which needs every history sample
   to be at least 1 — including the one just recorded, which is the number
   of updates left behind the dequeued head.
   */
  lemma BlendReadsNonEmptyBuffer(p: PlayerRecord, cfg: Config)
    requires Valid(p, cfg) && |p.buffer| > 0 && SampleMatchesBuffer(p)
    ensures MaybeStart(AbortIfDrained(Dequeue(p))).progress != 0 ==>
              |MaybeStart(AbortIfDrained(Dequeue(p))).buffer| > 0
  {
    var d := Dequeue(p);
    var a := AbortIfDrained(d);
    if a.progress == 0 && HaveExtraFrame(a.history) {
      assert a.history.buffer[a.history.index] >= 1;
      assert p.progress == 0;
    }
  }

  /**
   The tick the cursor points at: apply the head of the buffer (blended
   while interpolating) and move the cursor on by one.
   */
  function Consume(p: PlayerRecord, cfg: Config): (r: PlayerRecord)
    requires Valid(p, cfg) && p.cursor.Some? && |p.buffer| > 0 && SampleMatchesBuffer(p)
    ensures Valid(r, cfg)
    ensures r.cursor == Some(p.cursor.value + 1)
    ensures r.buffer == p.buffer[1..] || (|p.buffer| >= 2 && r.buffer == p.buffer[2..])
    ensures |p.buffer| >= 2 && r.buffer == p.buffer[2..] ==> r.progress == 0
    ensures p.progress != 0 && |p.buffer| >= 2 && Finishes(p.progress + 1, cfg.interpolationSteps) ==>
              r.progress == 0 && r.buffer == p.buffer[2..]
    ensures p.progress != 0 && |p.buffer| >= 2 && !Finishes(p.progress + 1, cfg.interpolationSteps) ==>
              r.progress == p.progress + 1 && r.buffer == p.buffer[1..]
    ensures p.progress != 0 && |p.buffer| == 1 ==>
              r.progress == 0 && r.buffer == [] && r.playerState.position == p.buffer[0].position
    ensures p.progress == 0 && HaveExtraFrame(p.history) ==>
              && |p.buffer| >= 2
              && (if Finishes(2, cfg.interpolationSteps) then r.progress == 0 && r.buffer == p.buffer[2..]
                  else r.progress == 2 && r.buffer == p.buffer[1..])
    ensures p.progress == 0 && HaveExtraFrame(p.history) ==>
              && (forall i :: 0 <= i < cfg.preparationTicks ==> r.history.buffer[i] == p.history.buffer[i] - 1)
              && r.playerState.position == LerpPosition(p.buffer[0].position, p.buffer[1].position,
                                                        1.0 / (cfg.interpolationSteps as real))
    ensures !(p.progress == 0 && HaveExtraFrame(p.history)) ==> r.history == p.history
    ensures p.progress == 0 && !HaveExtraFrame(p.history) ==>
              r.playerState.position == p.buffer[0].position && r.buffer == p.buffer[1..] && r.progress == 0
    ensures p.progress != 0 && |p.buffer| >= 2 ==>
              r.playerState.position == LerpPosition(p.buffer[0].position, p.buffer[1].position,
                                                     (p.progress as real) / (cfg.interpolationSteps as real))
    ensures r.playerId == p.playerId && r.playerState.playerId == p.playerState.playerId
    ensures r.playerState.color == p.playerState.color && r.outbox == p.outbox
    ensures r.lastUpdateTime == p.lastUpdateTime && r.spreadList == p.spreadList
  {
    var head := p.buffer[0];
    var started := MaybeStart(AbortIfDrained(Dequeue(p)));
    BlendReadsNonEmptyBuffer(p, cfg);
    var blended := Blend(started, cfg, head);
    blended.(cursor := Some(p.cursor.value + 1))
  }

  /**
   Whether the tick starts an interpolation on an idle player: after this
   tick's surplus sample is recorded, every history slot shows a spare update.
   */
  predicate StartsInterpolation(p: PlayerRecord)
    requires CyclicCounter.Valid(p.history)
  {
    HaveExtraFrame(CyclicCounter.Next(p.history, Surplus(p)))
  }

  /**
   One tick for an anchored player as Server.ts writes it: record the
   surplus, then skip an empty buffer, resynchronise a cursor that fell
   behind, wait for a cursor that is ahead, or consume the update for this
   tick. A resynchronisation always ends the tick, even when it moves the
   cursor onto this very tick.
   */
  function StepPlayerAsWritten(p: PlayerRecord, cfg: Config, tickId: nat): (r: PlayerRecord)
    requires Valid(p, cfg) && p.cursor.Some?
    ensures Valid(r, cfg)
    ensures r.cursor.Some? && r.cursor.value >= p.cursor.value
    ensures r.history.index == (p.history.index + 1) % cfg.preparationTicks
    ensures r.history.buffer[r.history.index] == Surplus(p)
              || (r.history.buffer[r.history.index] == Surplus(p) - 1 && p.progress == 0 && r.cursor == Some(tickId + 1))
    ensures |p.buffer| == 0 || p.cursor.value > tickId ==>
              r == p.(history := CyclicCounter.Next(p.history, Surplus(p)))
    ensures |p.buffer| > 0 && p.cursor.value < tickId ==>
              && r.buffer == p.buffer && r.progress == p.progress && r.playerState == p.playerState
              && r.cursor.value >= tickId
              && r.cursor.value == tickId + (if |p.buffer| < SERVER_INITIAL_BUFFER_OFFSET
                                             then SERVER_INITIAL_BUFFER_OFFSET - |p.buffer| else 0)
    ensures |p.buffer| > 0 && p.cursor.value == tickId ==> r.cursor == Some(tickId + 1)
    ensures |r.buffer| <= |p.buffer| && r.buffer == p.buffer[|p.buffer| - |r.buffer|..]
    ensures r.playerId == p.playerId && r.playerState.playerId == p.playerState.playerId
    ensures r.playerState.color == p.playerState.color && r.outbox == p.outbox
  {
    var q := RecordSurplus(p, cfg);
    if |q.buffer| == 0 then q
    else if tickId != q.cursor.value then
      if q.cursor.value < tickId then Resync(q, tickId) else q
    else Consume(q, cfg)
  }

  /**
   The tick the cursor points at, as written: a running interpolation that
   has drained resets and applies the last update; one that still has an
   update to blend towards advances a step or finishes and drops that
   update; an idle player starts an interpolation when every recent sample
   (this tick's included) shows a spare update, and otherwise applies the
   head of the buffer as it is.
   */
  lemma ConsumeTickAsWritten(p: PlayerRecord, cfg: Config, tickId: nat)
    requires Valid(p, cfg) && p.cursor == Some(tickId) && |p.buffer| > 0
    ensures var r := StepPlayerAsWritten(p, cfg, tickId);
            p.progress != 0 && |p.buffer| == 1 ==>
              r.progress == 0 && r.buffer == [] && r.playerState.position == p.buffer[0].position
    ensures var r := StepPlayerAsWritten(p, cfg, tickId);
            p.progress != 0 && |p.buffer| >= 2 ==>
              && r.playerState.position == LerpPosition(p.buffer[0].position, p.buffer[1].position,
                                                        (p.progress as real) / (cfg.interpolationSteps as real))
              && (if Finishes(p.progress + 1, cfg.interpolationSteps)
                  then r.progress == 0 && r.buffer == p.buffer[2..]
                  else r.progress == p.progress + 1 && r.buffer == p.buffer[1..])
    ensures var r := StepPlayerAsWritten(p, cfg, tickId);
            p.progress == 0 && StartsInterpolation(p) ==>
              && |p.buffer| >= 2
              && r.playerState.position == LerpPosition(p.buffer[0].position, p.buffer[1].position,
                                                        1.0 / (cfg.interpolationSteps as real))
              && (if Finishes(2, cfg.interpolationSteps)
                  then r.progress == 0 && r.buffer == p.buffer[2..]
                  else r.progress == 2 && r.buffer == p.buffer[1..])
    ensures var r := StepPlayerAsWritten(p, cfg, tickId);
            p.progress == 0 && !StartsInterpolation(p) ==>
              r.playerState.position == p.buffer[0].position && r.buffer == p.buffer[1..] && r.progress == 0
  {
  }

  /**
   One tick for an anchored player with the resynchronisation corrected: a
   cursor that lands on this very tick (the buffer already covers the
   initial offset) consumes this tick's update at once instead of falling
   behind again on the next tick.
   */
  function StepPlayer(p: PlayerRecord, cfg: Config, tickId: nat): (r: PlayerRecord)
    requires Valid(p, cfg) && p.cursor.Some?
    ensures Valid(r, cfg)
    ensures r.cursor.Some? && r.cursor.value >= p.cursor.value
    ensures |p.buffer| > 0 && p.cursor.value <= tickId ==> r.cursor.value > tickId
    ensures |p.buffer| > 0 && p.cursor.value < tickId && |p.buffer| >= SERVER_INITIAL_BUFFER_OFFSET ==>
              r.cursor == Some(tickId + 1) && |r.buffer| < |p.buffer|
    ensures |r.buffer| <= |p.buffer| && r.buffer == p.buffer[|p.buffer| - |r.buffer|..]
  {
    var q := RecordSurplus(p, cfg);
    if |q.buffer| == 0 then q
    else
      var s := if q.cursor.value < tickId then Resync(q, tickId) else q;
      if s.cursor.value == tickId then Consume(s, cfg) else s
  }

  /**
   The correction changes nothing but the resynchronising tick: when the
   buffer covers the initial offset it behaves as the tick written in
   Server.ts would on a cursor already moved to this tick, and in every
   other case the two steps agree.
   */
  lemma StepPlayerOnlyFixesResync(p: PlayerRecord, cfg: Config, tickId: nat)
    requires Valid(p, cfg) && p.cursor.Some?
    ensures |p.buffer| > 0 && p.cursor.value < tickId && |p.buffer| >= SERVER_INITIAL_BUFFER_OFFSET ==>
              StepPlayer(p, cfg, tickId) == StepPlayerAsWritten(p.(cursor := Some(tickId)), cfg, tickId)
    ensures !(|p.buffer| > 0 && p.cursor.value < tickId && |p.buffer| >= SERVER_INITIAL_BUFFER_OFFSET) ==>
              StepPlayer(p, cfg, tickId) == StepPlayerAsWritten(p, cfg, tickId)
  {
  }

  /**
   A cursor that fell behind while the buffer already holds the initial
   offset's worth of updates.
   */
  predicate Stalled(p: PlayerRecord, cfg: Config, tickId: nat) {
    Valid(p, cfg) && p.cursor.Some? && p.cursor.value < tickId && |p.buffer| >= SERVER_INITIAL_BUFFER_OFFSET
  }

  /**
   As written, a stalled player never recovers: the tick moves the cursor
   onto the current tick and ends, so the next tick finds it behind again
   with the same buffer, and no buffered update is ever applied.
   */
  lemma ResyncStallsAsWritten(p: PlayerRecord, cfg: Config, tickId: nat)
    requires Stalled(p, cfg, tickId)
    ensures var r := StepPlayerAsWritten(p, cfg, tickId);
            && Stalled(r, cfg, tickId + 1)
            && r.buffer == p.buffer && r.playerState == p.playerState && r.progress == p.progress
            && r.cursor == Some(tickId)
  {
  }

  /** With the correction, a stalled player applies an update on this very tick and is no longer behind. */
  lemma ResyncRecovers(p: PlayerRecord, cfg: Config, tickId: nat)
    requires Stalled(p, cfg, tickId)
    ensures var r := StepPlayer(p, cfg, tickId);
            && !Stalled(r, cfg, tickId + 1)
            && r.cursor == Some(tickId + 1) && |r.buffer| < |p.buffer|
  {
  }
}

=== FILE: Timers.dfy ===
/**
 The drift-resisting periodic scheduler (src/engine/timers.ts).

 The host's timeout queue enters the model as `pending`: the handles of this
 timer's callbacks that the host has scheduled and not yet run or cancelled.
 The clock (`performance.now()`) and the handles the host hands out are
 inputs.
 */
module Timers {
  import opened Wrappers

  /** Timeout handles are positive integers, so a recorded handle is always truthy. */
  type TimeoutId = n: nat | n > 0 witness 1

  /**
   `dueAt` is the time the callback `tick()` last scheduled is due
   (`now + delay`); it is None until a tick has scheduled one, since the
   zero-delay callback of `start()` is due at a time the model is not given.
   */
  datatype IntervalTimer = IntervalTimer(
    intervalMs: real,
    tickId: nat,
    startedAt: Option<real>,
    timeoutId: Option<TimeoutId>,
    pending: set<TimeoutId>,
    dueAt: Option<real>)

  /** A new timer: no tick completed, not started, nothing scheduled. */
  function New(intervalMs: real): (t: IntervalTimer)
    ensures t.intervalMs == intervalMs && t.tickId == 0
    ensures t.startedAt == None && t.timeoutId == None && t.pending == {} && t.dueAt == None
  {
    IntervalTimer(intervalMs, 0, None, None, {}, None)
  }

  /** `getTickId()`: the number of ticks completed so far. */
  function GetTickId(t: IntervalTimer): nat {
    t.tickId
  }

  /**
   `start()` as written: it schedules the first callback but keeps no handle
   to it, so `timeoutId` is left as it was.
   */
  function StartAsWritten(t: IntervalTimer, id: TimeoutId): (r: IntervalTimer)
    ensures r.pending == t.pending + {id}
    ensures r.timeoutId == t.timeoutId
    ensures r.tickId == t.tickId && r.startedAt == t.startedAt && r.intervalMs == t.intervalMs
    ensures r.dueAt == t.dueAt
  {
    t.(pending := t.pending + {id})
  }

  /** `start()` recording the handle of the first callback, so that `stop()` can cancel it. */
  function Start(t: IntervalTimer, id: TimeoutId): (r: IntervalTimer)
    ensures r.pending == t.pending + {id}
    ensures r.timeoutId == Some(id)
    ensures r.tickId == t.tickId && r.startedAt == t.startedAt && r.intervalMs == t.intervalMs
    ensures r.dueAt == t.dueAt
  {
    t.(pending := t.pending + {id}, timeoutId := Some(id))
  }

  /** The host runs the scheduled callback `id`: it leaves the queue. */
  function Fire(t: IntervalTimer, id: TimeoutId): (r: IntervalTimer)
    requires id in t.pending
    ensures r.pending == t.pending - {id} && id !in r.pending
    ensures r == t.(pending := t.pending - {id})
  {
    t.(pending := t.pending - {id})
  }

  /** The first callback fixes the start time that every later target is measured from. */
  function Begin(t: IntervalTimer, now: real): (r: IntervalTimer)
    ensures r.startedAt == Some(now)
    ensures r == t.(startedAt := Some(now))
  {
    t.(startedAt := Some(now))
  }

  /** When tick number `n` is due: a fixed offset from the start, whatever happened before. */
  function Target(startedAt: real, n: nat, intervalMs: real): real {
    startedAt + (n as real) * intervalMs
  }

  /**
   The delay `tick()` schedules after its callback has run at time `now`:
   the distance to the next target, or one whole interval once that target
   has already passed.
   */
  function Delay(t: IntervalTimer, now: real): (delay: real)
    requires t.startedAt.Some?
    ensures Target(t.startedAt.value, t.tickId + 1, t.intervalMs) - now >= 0.0 ==>
              delay == Target(t.startedAt.value, t.tickId + 1, t.intervalMs) - now
    ensures Target(t.startedAt.value, t.tickId + 1, t.intervalMs) - now < 0.0 ==> delay == t.intervalMs
    ensures t.intervalMs >= 0.0 ==> delay >= 0.0
    ensures t.intervalMs >= 0.0 ==> now + delay >= Target(t.startedAt.value, t.tickId + 1, t.intervalMs)
  {
    var d := Target(t.startedAt.value, t.tickId + 1, t.intervalMs) - now;
    if d < 0.0 then t.intervalMs else d
  }

  /**
   `tick()` after its callback has run at time `now`: count the tick and
   schedule the next one under handle `id`, due after `Delay`. The callback
   itself observes `t.tickId`, the number of ticks completed before it.
   */
  function Tick(t: IntervalTimer, now: real, id: TimeoutId): (r: IntervalTimer)
    requires t.startedAt.Some?
    ensures r.tickId == t.tickId + 1
    ensures r.startedAt == t.startedAt && r.intervalMs == t.intervalMs
    ensures r.timeoutId == Some(id) && r.pending == t.pending + {id}
    ensures r.dueAt == Some(now + Delay(t, now))
    ensures t.intervalMs >= 0.0 ==>
              now <= r.dueAt.value && Target(t.startedAt.value, r.tickId, t.intervalMs) <= r.dueAt.value
  {
    t.(tickId := t.tickId + 1, timeoutId := Some(id), pending := t.pending + {id},
       dueAt := Some(now + Delay(t, now)))
  }

  /** `stop()`: cancel the recorded callback, if any, and forget its handle. */
  function Stop(t: IntervalTimer): (r: IntervalTimer)
    ensures r.timeoutId == None
    ensures t.timeoutId.Some? ==> r.pending == t.pending - {t.timeoutId.value}
    ensures t.timeoutId.None? ==> r.pending == t.pending
    ensures r.tickId == t.tickId && r.startedAt == t.startedAt && r.intervalMs == t.intervalMs
    ensures r.dueAt == t.dueAt
  {
    match t.timeoutId
    case Some(id) => t.(pending := t.pending - {id}, timeoutId := None)
    case None => t
  }

  lemma StopIdempotent(t: IntervalTimer)
    ensures Stop(Stop(t)) == Stop(t)
  {
  }

  /** Every callback the host still holds for this timer is the one `timeoutId` records. */
  predicate Tracked(t: IntervalTimer) {
    forall id :: id in t.pending ==> t.timeoutId == Some(id)
  }

  /** On a tracked timer `stop()` leaves no callback behind. */
  lemma StopCancelsEverything(t: IntervalTimer)
    requires Tracked(t)
    ensures Stop(t).pending == {}
  {
  }

  /** Starting an idle timer, running its callbacks and ticking all keep it tracked. */
  lemma TrackedPreserved(t: IntervalTimer, id: TimeoutId, now: real)
    requires Tracked(t)
    ensures t.pending == {} ==> Tracked(Start(t, id))
    ensures id in t.pending ==> Tracked(Fire(t, id)) && Fire(t, id).pending == {}
    ensures t.pending == {} && t.startedAt.Some? ==> Tracked(Tick(t, now, id))
    ensures Tracked(Begin(t, now)) && Tracked(Stop(t))
  {
    if id in t.pending {
      assert t.timeoutId == Some(id);
      forall other | other in t.pending
        ensures other == id
      {
        assert t.timeoutId == Some(other);
      }
    }
  }

  /**
   What `start()` as written keeps true: the host holds at most one callback
   of the timer, and once a handle is recorded it is that callback's. Before
   the first tick the one callback may have no recorded handle.
   */
  predicate SingleCallback(t: IntervalTimer) {
    |t.pending| <= 1 && (t.timeoutId.Some? ==> Tracked(t))
  }

  /** A set with at most one element that holds `id` holds nothing else. */
  lemma AtMostOne(s: set<TimeoutId>, id: TimeoutId)
    requires |s| <= 1 && id in s
    ensures s == {id}
  {
    assert |s - {id}| == |s| - 1 == 0;
  }

  /**
   Starting a new timer, running its callback, fixing the start time,
   ticking with nothing else scheduled and stopping all keep a single
   callback; running the one callback leaves none.
   */
  lemma SingleCallbackPreserved(t: IntervalTimer, intervalMs: real, id: TimeoutId, now: real)
    requires SingleCallback(t)
    ensures SingleCallback(StartAsWritten(New(intervalMs), id))
    ensures id in t.pending ==> SingleCallback(Fire(t, id)) && Fire(t, id).pending == {}
    ensures t.pending == {} && t.startedAt.Some? ==> SingleCallback(Tick(t, now, id))
    ensures SingleCallback(Begin(t, now)) && SingleCallback(Stop(t))
  {
    if id in t.pending {
      AtMostOne(t.pending, id);
    }
    if t.timeoutId.Some? && t.timeoutId.value in t.pending {
      AtMostOne(t.pending, t.timeoutId.value);
    }
  }

  /**
   With `start()` as written, a `stop()` issued before the first tick finds
   no handle: the first callback stays scheduled, and when it runs it starts
   the tick chain of a stopped timer.
   */
  lemma StopBeforeFirstTickAsWritten(intervalMs: real, id: TimeoutId)
    ensures Stop(StartAsWritten(New(intervalMs), id)).pending == {id}
    ensures !Tracked(StartAsWritten(New(intervalMs), id))
  {
  }

  /** With the handle recorded, a `stop()` before the first tick cancels it. */
  lemma StopBeforeFirstTick(intervalMs: real, id: TimeoutId)
    ensures Stop(Start(New(intervalMs), id)).pending == {}
  {
    TrackedPreserved(New(intervalMs), id, 0.0);
    StopCancelsEverything(Start(New(intervalMs), id));
  }

  /** `|nows|` consecutive `tick()` calls at times `nows`, scheduling handles `ids`. */
  function Run(t: IntervalTimer, nows: seq<real>, ids: seq<TimeoutId>): (r: IntervalTimer)
    requires t.startedAt.Some? && |ids| == |nows|
    ensures r.startedAt == t.startedAt && r.intervalMs == t.intervalMs
    decreases |nows|
  {
    if |nows| == 0 then t
    else Tick(Run(t, nows[..|nows| - 1], ids[..|ids| - 1]), nows[|nows| - 1], ids[|ids| - 1])
  }

  /** Every `tick()` counts exactly one tick. */
  lemma {:induction false} RunCounts(t: IntervalTimer, nows: seq<real>, ids: seq<TimeoutId>)
    requires t.startedAt.Some? && |ids| == |nows|
    ensures Run(t, nows, ids).tickId == t.tickId + |nows|
    decreases |nows|
  {
    if |nows| > 0 {
      RunCounts(t, nows[..|nows| - 1], ids[..|ids| - 1]);
    }
  }

  /**
   No drift: after any run of ticks, however late earlier callbacks ran, the
   callback the run last scheduled is due no earlier than the target of the
   ticks counted so far, and the tick that runs next at time `now` schedules
   its successor no earlier than the target after that.
   */
  lemma RunNoDrift(t: IntervalTimer, nows: seq<real>, ids: seq<TimeoutId>, now: real)
    requires t.startedAt.Some? && |ids| == |nows| && t.intervalMs >= 0.0
    ensures now + Delay(Run(t, nows, ids), now) >= Target(t.startedAt.value, t.tickId + |nows| + 1, t.intervalMs)
    ensures |nows| > 0 ==>
              Run(t, nows, ids).dueAt.Some?
              && Run(t, nows, ids).dueAt.value >= Target(t.startedAt.value, t.tickId + |nows|, t.intervalMs)
  {
    RunCounts(t, nows, ids);
  }

  /**
   The on-time half of no drift: when the last tick of a run was not late
   for its target, the callback it scheduled is due exactly at the next
   target `start + n * interval`; when it was late, it is due one whole
   interval after that tick ran.
   */
  lemma RunOnTime(t: IntervalTimer, nows: seq<real>, ids: seq<TimeoutId>)
    requires t.startedAt.Some? && |ids| == |nows| && |nows| > 0
    ensures nows[|nows| - 1] <= Target(t.startedAt.value, t.tickId + |nows|, t.intervalMs) ==>
              Run(t, nows, ids).dueAt == Some(Target(t.startedAt.value, t.tickId + |nows|, t.intervalMs))
    ensures nows[|nows| - 1] > Target(t.startedAt.value, t.tickId + |nows|, t.intervalMs) ==>
              Run(t, nows, ids).dueAt == Some(nows[|nows| - 1] + t.intervalMs)
  {
    var n := |nows|;
    var prev := Run(t, nows[..n - 1], ids[..n - 1]);
    RunCounts(t, nows[..n - 1], ids[..n - 1]);
    assert Run(t, nows, ids) == Tick(prev, nows[n - 1], ids[n - 1]);
    TickDue(prev, nows[n - 1], ids[n - 1], t.startedAt.value, t.tickId + n);
  }

  /**
   One `tick()` at time `now`, counting tick number `n` of a timer started at
   `start`: on time, its successor is due at the next target; late, one whole
   interval after `now`.
   */
  lemma TickDue(t: IntervalTimer, now: real, id: TimeoutId, start: real, n: nat)
    requires t.startedAt == Some(start) && n == t.tickId + 1
    ensures now <= Target(start, n, t.intervalMs) ==> Tick(t, now, id).dueAt == Some(Target(start, n, t.intervalMs))
    ensures now > Target(start, n, t.intervalMs) ==> Tick(t, now, id).dueAt == Some(now + t.intervalMs)
  {
  }
}

=== FILE: Types.dfy ===
/**
 Constants and message/state shapes shared by the server and the client
 (src/engine/consts.ts and src/engine/types.ts).
 */
module Types {

  /** Server simulation rate, ticks per second. */
  const SERVER_UPDATES_RATE: nat := 30
  /** Nominal server tick interval in milliseconds. */
  const SERVER_UPDATES_INTERVAL: real := 1000.0 / 30.0

  /** Client uplink rate; also the length of the server's arrival-spread window. */
  const CLIENT_UPDATES_RATE: nat := 30
  /** Nominal interval between two client updates in milliseconds. */
  const CLIENT_UPDATES_INTERVAL: real := 1000.0 / 30.0

  /** Ticks by which the server defers consumption of a player's first update. */
  const SERVER_INITIAL_BUFFER_OFFSET: nat := 4

  datatype Position = Position(x: real, y: real)

  datatype PlayerState = PlayerState(playerId: string, color: string, position: Position)

  /** Players in connection order. */
  datatype GameState = GameState(players: seq<PlayerState>)

  /** Messages the server sends to a client. */
  datatype ServerMessage =
    | Initial(playerId: string, gameState: GameState)
    | GameStateUpdate(gameState: GameState)

  /** Messages a client sends to the server. */
  datatype ClientMessage = PlayerPositionUpdate(position: Position)

  /** The payload of a position update, as the server buffers it. */
  datatype PlayerUpdate = PlayerUpdate(position: Position)
}

=== FILE: Wrappers.dfy ===
/** An optional value, standing for a TypeScript field that may be `undefined`. */
module Wrappers {

  datatype Option<+T> = None | Some(value: T)
}
